=== FILE: README.md ===
# sql_helper core in Dafny

A model of the decision logic in NQN-Discord's `sql_helper`. This is the Postgres access layer of a Discord emote bot. Each SQL statement is restated over an in-memory table, so that what the statement promises can be proved:

- An `UPDATE`, `DELETE` or `INSERT ... ON CONFLICT` becomes a pure function from the old table to the new one.
- A `SELECT ... LIMIT 1` becomes "the first row meeting the WHERE clause".
- Every emote lookup returns its answer together with the number of queries it issued.

Modules, one per source file:

| module | file | models |
|---|---|---|
| `Common` | common.dfy | `Option` and `Result`. Python truthiness (`Truthy`) versus SQL `NULL` equality (`SqlEq`). |
| `Text` | text.dfy | Python `rstrip(" ")` and PostgreSQL `trim()`. The "C"-collation string order used by `order by "name"` and by `<`/`>` on names. |
| `Ranking` | ranking.dfy | `ORDER BY key [DESC] LIMIT k` as top-k selection, and `list.reverse()`. |
| `Emotes` | emotes.dfy | The `emote_ids` table and the first-match lookups. `get_emote_like` / `_get_emote_like`. `purge_emojis`, `set_emote_perceptual_data` and `clear_guild_emotes`. |
| `Resolver` | resolver.dfy | `_case_insensitive_get_emote` / `_get_emote_with_where`, as written and corrected. The resolution table of the test suite as worked examples. |
| `Scores` | scores.dfy | The popularity counter: the 32-bit `2 << ((s >> 5) + 3)` draw range, `increment_guild_emote_score`, `decay_guild_emote_score`, `emote_score` and `guild_emote_scores`. |
| `Aliases` | aliases.dfy | `_get_emotes`, `_list_to_optional`, `set_user_alias(es)`, `delete_user_alias` and `delete_all_user_aliases`. |
| `BlockedEmotes` | blocked.dfy | Matching blocked emotes by id or shared hash, blocking and unblocking, the 10-row search window with `Ordering`, prefix search, and `share_hashes_with_blocked_emote`. |
| `GuildMessages` | guild_messages.dfy | The filter dispatch of `_get_guild_message`, message counting, and the upsert with its NUL fallback. |
| `Premium` | premium.dfy | Adding and removing guild features, with their side effects on guild settings. The two premium-user upserts. |
| `GuildSettingsRecord` | guild_settings.dfy | `GuildSettings.__init__` and `_parse_boolean`. |
| `Webhooks` | webhook.dfy | `Webhook.url`, `__eq__` and `__hash__`. |

## Modelling choices

- **The emote store** is a `seq<EmoteRow>` in table order. A `LIMIT 1` query returns the first row whose WHERE clause holds, as the test mocks do (tests/test_emotes.py:146-159, 190-206).
  - WHERE clauses are a first-order `Query` datatype with a `Matches` predicate.
  - The caller's scope clause (a guild, a pack, the guilds a user shares with the bot) and SQL `lower()` are parameters. They are bundled as a `Ctx`.
- **Emote identity:** `_get_emoji` (the conversion to a discord.py object) is treated as the identity. A lookup returns the selected `SqlEmoji` record with its name read through `trim(name)`.
- **The random draw** of the score bump is an explicit parameter, one natural number per row.
  - `ValidDraw(d, range)` says which draws `trunc(random() * range)` can produce.
  - The bump itself is stated for every sequence of draws.
- **Integer width:** `"char"` scores are a `SignedByte` subtype. `int4` shifts are written out:
  - `x >> 5` is floor division by 32;
  - `x << n` masks the count to five bits and wraps the product to 32 bits (`ShiftLeft32`).
- **Batch inserts** that can hit the same key twice in one statement (`set_user_aliases`, `add_guild_message_bulk`, `update_premium_users`) return a `Result`. PostgreSQL refuses such a statement ("ON CONFLICT DO UPDATE command cannot affect row a second time").
- **Keys.** The schema is not part of this model; these keys are assumed from the `ON CONFLICT` targets:
  - `aliases_pk` is (user_id, name);
  - `guild_messages_pk` is message_id;
  - `emote_ids` is keyed by emote_id;
  - `blocked_emotes` is keyed by (guild_id, emote_id).
  - the key predicates (`UniqueKeys`, `UniqueIds`), the repeated-key batch failures (`NamesRepeat` and the others) and the "first row is the only row" readings rest on them.
- **NUL in text:** psycopg's `ValueError` for a string holding NUL (`'\0'`) is modelled by `HasNul`.
- **Row order:** where SQL leaves the order of a result unspecified (a `union`, a join, rows appended by an insert), the model fixes one. The contracts speak only of membership.
- **Where the code and its description disagree, the model follows the code:**
  - **Decay is guild-level.** Every row of a guild that holds some row above -28 is decremented, including the guild's rows at or below -28 (`Scores.ColdRowInHotGuildDecays`). Orphans are never touched.
  - **Hash fallback filters.** The same-hash fallback `_get_emote_like` applies no scope, `has_roles` or `manual_block` filter.
  - **Resolver lookups.** The resolver's first case-insensitive lookup does not require `usable`. Only the retry at sql_helper/mixins/emojis.py:434 does.
  - **Missing `pledge_id`.** `update_premium_users` reads `user.pledge_id`, but the `PremiumUser` tuple (sql_helper/premium_user.py:4-7) has no such field. The model's `PremiumUser` carries `pledgeId`.
- **Test case 8 cannot happen.** The eighth case of the resolution table (tests/test_emotes.py:119-127) feeds four answers and expects the fourth to be found. On any real table that fourth query repeats the second one, so it finds nothing (`Resolver.RepeatedCopySearchFindsNothing`). The worked examples cover the other seven cases.

## Model

| member | source | states |
|---|---|---|
| Common.Coalesce | sql_helper/mixins/emojis.py:147 | `coalesce(a, b)` keeps a non-null `a` and otherwise yields `b`. |
| Text.TrimEndKeepsPrefix | sql_helper/mixins/aliases.py:71 | `rstrip(" ")` returns a prefix of the name. Only spaces follow it in the name, and it does not itself end in a space. |
| Text.TrimEndSplits | sql_helper/mixins/aliases.py:71 | The stored name is the stripped name followed by spaces only, and stripping twice changes nothing. |
| Text.TrimEndIgnoresPadding | sql_helper/mixins/aliases.py:71 | Padding a name with any number of spaces does not change what `rstrip(" ")` reads back. |
| Text.LessIrreflexive | sql_helper/mixins/blocked_emojis.py:100 | No name sorts strictly before itself under `"name" < %(name)s`. |
| Text.LessAsymmetric | sql_helper/mixins/blocked_emojis.py:100 | Two names never each sort before the other. |
| Text.LessTransitive | sql_helper/mixins/blocked_emojis.py:100-110 | The name order used by `order by "name"` is transitive. |
| Text.LessTotal | sql_helper/mixins/blocked_emojis.py:100-110 | Any two different names are ordered one way or the other, so `order by "name"` is a total order. |
| Text.LessEqTotal | sql_helper/mixins/blocked_emojis.py:105 | `>=` and `<` split all names: each name is either `>=` the bound or `<` it. |
| Text.LessEqTransitive | sql_helper/mixins/blocked_emojis.py:105 | `<=` on names is transitive. |
| Ranking.NotAfterTotal | sql_helper/mixins/blocked_emojis.py:100-110 | In either direction of `order by`, of two keys one comes no later than the other. |
| Ranking.NotAfterTransitive | sql_helper/mixins/blocked_emojis.py:100-110 | The `order by` order, ascending or descending, is transitive. |
| Ranking.ExtremeIndex | sql_helper/mixins/blocked_emojis.py:100-110 | Finds a row that no other row precedes in the requested direction. |
| Ranking.Without | sql_helper/mixins/blocked_emojis.py:100-110 | Removing one row keeps every other row in order and shrinks the multiset by exactly that row. |
| Ranking.TopK | sql_helper/mixins/blocked_emojis.py:100-110 | `order by key [desc] limit k`: the result has `min(k, n)` rows drawn from the input and is sorted. No row left out comes before a kept one. |
| Ranking.TopKStep | sql_helper/mixins/blocked_emojis.py:100-110 | A row the selection takes first precedes all rows left after it. |
| Ranking.ConsSorted | sql_helper/mixins/blocked_emojis.py:100-110 | A row that may come before every row of a sorted list may head it. |
| Ranking.Reverse | sql_helper/mixins/blocked_emojis.py:114-115 | `list.reverse()`: element `i` of the result is element `n-1-i` of the input. |
| Ranking.ReverseFlipsOrder | sql_helper/mixins/blocked_emojis.py:114-115 | Reversing keeps the same rows and turns a descending list into an ascending one. |
| Emotes.FirstIndex | sql_helper/mixins/emojis.py:449-455 | `LIMIT 1` selects the first row meeting the clause, or reports that no row meets it. |
| Emotes.Select | sql_helper/mixins/emojis.py:446-455 | A single-row lookup returns nothing iff no row matches. Otherwise it returns the first matching row as read through `trim(name)`. |
| Emotes.FirstAtUnique | sql_helper/mixins/emojis.py:449-455 | The first matching row is unique, so a `LIMIT 1` answer is determined by the table. |
| Emotes.EmoteLike | sql_helper/mixins/emojis.py:117-133 | `_get_emote_like` returns only a usable row whose hash equals the emote's non-null hash, guild-owned if required. It returns nothing iff no such row exists. |
| Emotes.GetEmoteLike | sql_helper/mixins/emojis.py:91-115 | `get_emote_like` returns nothing after one query iff the id is unknown. A usable row with a truthy guild, or any usable row when `require_guild` is off, comes back itself after one query. Otherwise the answer is the first same-hash usable row, after two queries. |
| Emotes.GetEmoteLikeNoneMeansNoUsableCopy | sql_helper/mixins/emojis.py:103-133 | A known emote that yields nothing has no usable (and, if required, guild-owned) row sharing its non-null hash. |
| Emotes.KeepUnpurged | sql_helper/mixins/emojis.py:78 | The rows the purge's `DELETE` keeps: exactly those that are not a listed orphan. |
| Emotes.Purge | sql_helper/mixins/emojis.py:70-81 | `purge_emojis` deletes exactly the listed ids that have no guild and returns that set of ids. |
| Emotes.PurgeIdempotent | sql_helper/mixins/emojis.py:70-81 | Purging the same ids again deletes and reports nothing. |
| Emotes.SetPerceptualData | sql_helper/mixins/emojis.py:135-158 | A new id gets a row with all the given columns. A known id changes only its name and `has_roles`, and gets the guild only if it had none. |
| Emotes.SetPerceptualDataIdempotent | sql_helper/mixins/emojis.py:135-158 | Recording the same perceptual data twice equals recording it once. |
| Emotes.ClearGuildEmotes | sql_helper/mixins/emojis.py:238-242 | `clear_guild_emotes` leaves no row in the guild. It only orphans rows, and only that guild's rows. |
| Resolver.Resolve | sql_helper/mixins/emojis.py:401-455 | The resolver as written. It returns nothing after one query iff nothing matches case-insensitively. It issues 1 to 5 queries, and its answer is the one the step-by-step cascade defines. |
| Resolver.ResolveFindsUsableRow | sql_helper/mixins/emojis.py:401-444 | The resolver never returns an unusable row, and it returns only rows of the table. |
| Resolver.UsableExactFirstMatchTakesOneQuery | sql_helper/mixins/emojis.py:412-424 | A usable first case-insensitive match that is exactly named is returned after one query. |
| Resolver.ExactIsFolded | sql_helper/mixins/emojis.py:405-419 | Every exact-name match is also a case-insensitive match. |
| Resolver.ShortcutIsExactLookup | sql_helper/mixins/emojis.py:415-420 | Skipping the second query when the first match already has the requested name gives the same row the exact lookup would. |
| Resolver.UsableShortcutIsUsableLookup | sql_helper/mixins/emojis.py:411-437 | Reusing a usable first match gives the same row the `usable=true` retry would. |
| Resolver.ExactUsableWins | sql_helper/mixins/emojis.py:421-424 | A usable first exact-name match is the answer. |
| Resolver.UsableFoldedMatchIsFound | sql_helper/mixins/emojis.py:432-444 | If any usable case-insensitive match is in scope, the resolver returns something. |
| Resolver.RepeatedCopySearchFindsNothing | sql_helper/mixins/emojis.py:425-442 | When the first case-insensitive match is exactly named but unusable, a fourth query repeats the second and finds nothing. This is test case 8's premise. |
| Resolver.AsWrittenSkipsUsableExactMatch | sql_helper/mixins/emojis.py:414-430 | A three-row table where a usable `test` row exists but the code returns `other` after two queries. |
| Resolver.ResolveCorrected | sql_helper/mixins/emojis.py:401-444 | The corrected resolver returns a differently named row only when no usable exact-name row is in scope. A usable exact-name row in scope always yields an exactly named answer. It returns nothing after one query iff nothing matches, and issues 1 to 6 queries. |
| Resolver.ResolveCorrectedFindsUsableRow | sql_helper/mixins/emojis.py:401-444 | The corrected resolver, too, returns only usable rows of the table. |
| Resolver.SelectedRow | sql_helper/mixins/emojis.py:446-455 | A lookup's row is a row of the table. A lookup that requires `usable=true` returns a usable row. |
| Resolver.CorrectedStepFacts | sql_helper/mixins/emojis.py:418-423 | An exact lookup's row carries the requested name. No exact-name row means no usable one. |
| Resolver.CorrectionAgreesWhenExactRowUsableOrMissing | sql_helper/mixins/emojis.py:414-430 | The correction changes nothing unless the first exact-name row is unusable. |
| Resolver.CorrectedFindsUsableExactMatch | sql_helper/mixins/emojis.py:414-430 | On the table that defeats the code as written, the corrected resolver returns the usable `test` row. |
| Resolver.ExampleEmptyTable | tests/test_emotes.py:76 | Nothing in scope: nothing, after one query. |
| Resolver.ExampleExactFirst | tests/test_emotes.py:77-80 | A usable exact first match: that row, after one query. |
| Resolver.ExampleExactSecond | tests/test_emotes.py:81-87 | A differently cased first match and a usable exact row: the exact row, after two queries. |
| Resolver.ExampleExactCopy | tests/test_emotes.py:88-95 | An unusable exact row with a usable same-image copy: the copy, after three queries. |
| Resolver.ExampleFoldedAfterFailedCopy | tests/test_emotes.py:96-103 | The copy search fails, so the usable case-insensitive first match is returned, after three queries. |
| Resolver.ExampleUnusableFoldedFirst | tests/test_emotes.py:104-110 | An unusable differently cased first match and a usable exact row: the exact row, after two queries. |
| Resolver.ExampleFoldedRetry | tests/test_emotes.py:111-118 | An unusable exact first match without a copy: the usable case-insensitive retry's row, after three queries. |
| Scores.ToInt32 | sql_helper/mixins/emojis.py:199 | Reading an integer back as `int4` lands in the 32-bit range and agrees with the integer modulo 2^32. |
| Scores.Bucket | sql_helper/mixins/emojis.py:192-199 | `(score >> 5) + 3` lies in -1..6. It is -1 exactly for scores up to -97. |
| Scores.ShiftTwoByBucket | sql_helper/mixins/emojis.py:199 | `2 << b` for each bucket: 0 for bucket -1 (a shift by 31 that wraps), `2^(b+1)` otherwise. |
| Scores.DrawRangeValues | sql_helper/mixins/emojis.py:192-199 | `2 << bucket` is 0 in bucket -1 (the shift by -1 wraps) and `2^(bucket+1)`, from 2 to 128, elsewhere. |
| Scores.DrawRangeMonotone | sql_helper/mixins/emojis.py:199 | The draw range never shrinks as the score grows. |
| Scores.BucketMonotone | sql_helper/mixins/emojis.py:199 | A higher score never lands in a lower bucket. |
| Scores.Pow2Monotone | sql_helper/mixins/emojis.py:199 | Larger exponents give larger powers of two. |
| Scores.DrawRangeDoublesPerBucket | sql_helper/mixins/emojis.py:199 | 32 points up, the draw range doubles, so the chance of a bump halves. |
| Scores.ColdestBucketAlwaysDraws0 | sql_helper/mixins/emojis.py:192-195 | In bucket -1 the only possible draw is 0: the certain increment the comment intends. |
| Scores.Bump | sql_helper/mixins/emojis.py:191-202 | Only the score changes, by exactly +1. It changes iff the row's (guild, emote) pair is in the batch, the score is not 127 and the row's draw is 0. |
| Scores.BumpIgnoresDuplicates | sql_helper/mixins/emojis.py:198 | Only the set of pairs matters: repeating a pair in the batch bumps no more. |
| Scores.ColdRowsAlwaysBumped | sql_helper/mixins/emojis.py:192-199 | A batch row in bucket -1 is bumped whatever the (valid) draw. |
| Scores.HotGuilds | sql_helper/mixins/emojis.py:207 | The subquery yields exactly the guilds holding a row scoring above -28. |
| Scores.DecayRows | sql_helper/mixins/emojis.py:206-208 | Each row of a listed guild loses one point unless at -128. Every other row is unchanged. |
| Scores.Decay | sql_helper/mixins/emojis.py:204-210 | Only scores change; the table keeps its rows. |
| Scores.DecayEffect | sql_helper/mixins/emojis.py:204-210 | Orphans, rows of guilds with nothing above -28, and rows at -128 are unchanged. Every other row loses exactly one point. |
| Scores.ColdRowInHotGuildDecays | sql_helper/mixins/emojis.py:207 | Decay is guild-level: a row at -50 decays because a row of its guild scores 0. |
| Scores.DecayTimes | sql_helper/mixins/emojis.py:204-210 | Repeated decay keeps the rows and their guilds. |
| Scores.DecayLoneRow | sql_helper/mixins/emojis.py:204-210 | One tick on a row alone in its guild lowers it by one exactly when it is above -28. |
| Scores.StaysLone | sql_helper/mixins/emojis.py:204-210 | Decay moves no row to another guild, so a lone row stays lone. |
| Scores.OneMoreTick | sql_helper/mixins/emojis.py:204-210 | Tick `n` on a lone row lowers the level after `n-1` ticks by one exactly when it is above -28. |
| Scores.SettleStep | sql_helper/mixins/emojis.py:207 | From the level after `m` ticks, one more tick reaches the level after `m+1`. |
| Scores.LoneRowSettlesAtMinus28 | sql_helper/mixins/emojis.py:204-210 | A row alone in its guild sinks one point per tick until -28 and then stays. |
| Scores.EmoteScore | sql_helper/mixins/emojis.py:220-228 | `emote_score` is the first row's score plus 128, in 0..255, and 0 for an unknown id. |
| Scores.GuildEmoteScores | sql_helper/mixins/emojis.py:212-218 | The guild's dictionary has exactly the guild's emote ids as keys. Each value is one of that emote's rows' score plus 128, in 0..255. |
| Scores.GuildScoresAgreeWithEmoteScore | sql_helper/mixins/emojis.py:212-228 | Under the primary key, the guild dictionary and the single-emote read report the same value. |
| Aliases.DecodeEmotes | sql_helper/mixins/aliases.py:68-73 | `_get_emotes` keeps the row count and order and maps `(animated, name, id)` positionally. Each name has its trailing spaces stripped. |
| Aliases.DecodedNameKeepsContent | sql_helper/mixins/aliases.py:71 | Each decoded name is the stored name minus trailing spaces only. The stored name is the decoded name followed by spaces. |
| Aliases.ListToOptional | sql_helper/mixins/aliases.py:76-78 | `None` exactly for an empty list, otherwise the first element. |
| Aliases.ListToOptionalRoundTrip | sql_helper/mixins/aliases.py:76-78 | Inverse of the option-to-list reading, and inverted by it on lists of at most one element. |
| Aliases.ListToOptionalIgnoresTail | sql_helper/mixins/aliases.py:76-78 | Rows after the first never change the result. |
| Aliases.AliasNamed | sql_helper/mixins/aliases.py:45-46 | The row holding a user's alias under a name, present iff some row has that key. |
| Aliases.SetUserAlias | sql_helper/mixins/aliases.py:43-53 | After the upsert, the key holds exactly the given emote id, animated flag and name. Rows of other keys are neither added nor removed. |
| Aliases.SetUserAliasKeepsKeysUnique | sql_helper/mixins/aliases.py:43-53 | The upsert keeps `(user_id, name)` a key of the table. |
| Aliases.UniqueKeysCons | sql_helper/mixins/aliases.py:43-53 | A table has unique keys exactly when its tail does and no tail row shares the head's key. |
| Aliases.SetEach | sql_helper/mixins/aliases.py:32-41 | Upserting aliases one after another stores every name. Other users' rows are kept and keys stay unique. |
| Aliases.SetUserAliases | sql_helper/mixins/aliases.py:23-41 | The bulk upsert fails iff the batch repeats a name. Otherwise every alias is stored as given; every row whose key the batch does not name is kept; nothing is added but the batch's rows; keys stay unique. |
| Aliases.SetEachStoresEach | sql_helper/mixins/aliases.py:23-41 | With distinct names, each alias of the batch ends up stored exactly as given. |
| Aliases.SetEachFrame | sql_helper/mixins/aliases.py:32-41 | Upserting a batch keeps every row whose key it does not name, and adds no row but those its aliases write. |
| Aliases.DistinctPrefix | sql_helper/mixins/aliases.py:23-41 | A prefix of a batch without repeated names has none either. |
| Aliases.LastNameIsNew | sql_helper/mixins/aliases.py:23-41 | In such a batch, the last alias's name differs from every earlier one. |
| Aliases.SetUserAliasKeepsOthers | sql_helper/mixins/aliases.py:43-53 | An upsert leaves what every other key resolves to unchanged. |
| Aliases.DeleteUserAlias | sql_helper/mixins/aliases.py:55-59 | Removes exactly the user's row with that name. |
| Aliases.DeleteAllUserAliases | sql_helper/mixins/aliases.py:61-65 | Removes all and only the user's rows. |
| Aliases.SetThenDelete | sql_helper/mixins/aliases.py:43-59 | Setting an alias and deleting it leaves every other key's row as it was and nothing under the name. |
| BlockedEmotes.EmotesBlocked | sql_helper/mixins/blocked_emojis.py:38-53 | Returns exactly the listed ids blocked in the guild by id or by a non-null hash equal to a block's hash, without duplicates. |
| BlockedEmotes.HasBlockedIffSomeBlocked | sql_helper/mixins/blocked_emojis.py:25-53 | `has_blocked_emotes` holds iff `emotes_blocked` returns something. |
| BlockedEmotes.HashOf | sql_helper/mixins/blocked_emojis.py:73 | The left join yields the hash of the emote's `emote_ids` row (the first with that id; the only one under the key), or null when the id is unknown. |
| BlockedEmotes.InsertIfAbsent | sql_helper/mixins/blocked_emojis.py:75 | `ON CONFLICT DO NOTHING`: a present key leaves the table as it is, an absent one appends the row. |
| BlockedEmotes.InsertIfAbsentKeepsKeysUnique | sql_helper/mixins/blocked_emojis.py:75 | Inserting only an absent key keeps the keys unique. |
| BlockedEmotes.BlockEmotes | sql_helper/mixins/blocked_emojis.py:55-83 | Existing blocks stay and every emote of the batch ends up blocked. Each new row carries the batch emote's name and flag and the hash looked up in `emote_ids`. Keys stay unique. |
| BlockedEmotes.BlockEmotesIdempotent | sql_helper/mixins/blocked_emojis.py:55-83 | Blocking the same batch twice equals blocking it once. |
| BlockedEmotes.AlreadyBlockedIsNoOp | sql_helper/mixins/blocked_emojis.py:75 | A batch whose keys are all present changes nothing. |
| BlockedEmotes.UnblockEmote | sql_helper/mixins/blocked_emojis.py:134-145 | Deletes exactly the (guild, emote) row. Reports true iff the guild still has a block. |
| BlockedEmotes.KeepOthers | sql_helper/mixins/blocked_emojis.py:137 | The delete keeps exactly the rows with another key. |
| BlockedEmotes.UnblockReportsOtherBlocks | sql_helper/mixins/blocked_emojis.py:134-145 | The guild keeps a block after unblocking iff it held a block of another emote before. |
| BlockedEmotes.Candidates | sql_helper/mixins/blocked_emojis.py:98-112 | The guild's rows whose names satisfy the ordering's `<`, `>=` or `>` against the bound. |
| BlockedEmotes.GuildCount | sql_helper/mixins/blocked_emojis.py:93-97 | `count(*)` is 0 iff the guild has no block and never exceeds the table. |
| BlockedEmotes.SearchRows | sql_helper/mixins/blocked_emojis.py:98-115 | The page holds `min(10, candidates)` of the window's rows. |
| BlockedEmotes.SearchRowsOrdered | sql_helper/mixins/blocked_emojis.py:98-115 | The page is ascending by name (for `before`, once reversed). `before` keeps the largest names below the bound; `equal` and `after` keep the smallest at or above it. |
| BlockedEmotes.BeforePageOrdered | sql_helper/mixins/blocked_emojis.py:98-115 | The `before` page keeps the largest names below the bound, ascending once reversed. |
| BlockedEmotes.LargestKept | sql_helper/mixins/blocked_emojis.py:100-110 | A descending top ten keeps the largest names. |
| BlockedEmotes.AscendingPageOrdered | sql_helper/mixins/blocked_emojis.py:100-122 | An ascending page of `k` rows keeps the smallest names, in order. |
| BlockedEmotes.BeforeEmptyNameIsEmpty | sql_helper/mixins/blocked_emojis.py:114 | A `before` search with an empty name finds nothing. |
| BlockedEmotes.Columns | sql_helper/mixins/blocked_emojis.py:100-112 | The selected `(animated, name, emote_id)` columns, row by row. |
| BlockedEmotes.DecodeRows | sql_helper/mixins/blocked_emojis.py:113 | Decoding keeps the page's length and order: entry `i` is row `i` with its name right-stripped of spaces. |
| BlockedEmotes.SubMultisetMembers | sql_helper/mixins/blocked_emojis.py:100-112 | A limited selection only holds rows of its source. |
| BlockedEmotes.Search | sql_helper/mixins/blocked_emojis.py:92-116 | Returns the guild's total block count and exactly `min(10, window size)` decoded rows (never more than that count), each a block of the guild inside the window. |
| BlockedEmotes.SearchPageOrdered | sql_helper/mixins/blocked_emojis.py:92-116 | The returned page decodes, position by position, rows of the window that are ascending by stored name and number `min(10, window size)`. For `before` they are the largest names below the bound; for `equal` and `after` the smallest at or above it. |
| BlockedEmotes.SearchRowsPage | sql_helper/mixins/blocked_emojis.py:98-115 | The queried rows form such a page of the window, including the unreversed empty `before` page. |
| BlockedEmotes.CandidatesCounted | sql_helper/mixins/blocked_emojis.py:93-112 | A window never holds more rows than the guild has. |
| BlockedEmotes.PrefixCandidates | sql_helper/mixins/blocked_emojis.py:120 | The guild's rows whose lower-cased name starts with the lower-cased prefix. |
| BlockedEmotes.PrefixRows | sql_helper/mixins/blocked_emojis.py:118-123 | The page holds `min(25, matches)` of the matching rows. |
| BlockedEmotes.PrefixRowsOrdered | sql_helper/mixins/blocked_emojis.py:120 | The prefix page is in name order, and no matching row left off it sorts before a listed one. |
| BlockedEmotes.WithPrefix | sql_helper/mixins/blocked_emojis.py:118-123 | Exactly `min(25, matches)` entries, each the decoding of a guild block whose lower-cased name starts with the prefix. |
| BlockedEmotes.WithPrefixPageOrdered | sql_helper/mixins/blocked_emojis.py:118-123 | The returned page decodes, position by position, the matching rows with the smallest stored names, ascending, `min(25, matches)` of them. |
| BlockedEmotes.BlockedHash | sql_helper/mixins/blocked_emojis.py:149 | The scalar subquery: the hash stored with the guild's block of that emote (the first block with that key), or null without such a block. |
| BlockedEmotes.ShareHashes | sql_helper/mixins/blocked_emojis.py:147-153 | Exactly the targets with an `emote_ids` row whose hash equals the block's non-null hash. Nothing when the block is missing or has no hash. |
| BlockedEmotes.SharedHashesAreBlocked | sql_helper/mixins/blocked_emojis.py:38-153 | Every id `share_hashes_with_blocked_emote` reports is one `emotes_blocked` reports for the same targets. |
| GuildMessages.Dispatch | sql_helper/mixins/guild_messages.py:98-135 | A non-`None` message id wins. Then come channel+user, channel, guild+user and guild, tested by truthiness. The call fails iff there is no message id, no truthy channel and no truthy guild. |
| GuildMessages.UserAloneIsNotImplemented | sql_helper/mixins/guild_messages.py:134-135 | A user id alone, or no filter at all, raises `NotImplementedError`. |
| GuildMessages.CountKept | sql_helper/mixins/guild_messages.py:94-96 | `count(*)` is 0 iff no row passes the filter and the table's size iff all do. |
| GuildMessages.GetGuildMessageCount | sql_helper/mixins/guild_messages.py:86-96 | Fails exactly when the dispatch does. Otherwise it counts the rows the chosen filter keeps. |
| GuildMessages.CountByMessageAtMostOne | sql_helper/mixins/guild_messages.py:109-113 | Under the primary key, counting by message id yields at most one. |
| GuildMessages.StoredContent | sql_helper/mixins/guild_messages.py:13 | Present iff some row has that id, and then the content of a row with that id. |
| GuildMessages.StoredContentIsFirst | sql_helper/mixins/guild_messages.py:13 | The content read is that of the first row with the id (the only one, under `guild_messages_pk`). |
| GuildMessages.Upsert | sql_helper/mixins/guild_messages.py:13 | After the upsert, the id holds the new content and every other id's content is unchanged. |
| GuildMessages.UpsertKeepsIdsUnique | sql_helper/mixins/guild_messages.py:13 | The upsert keeps message ids unique. |
| GuildMessages.UpsertAppendsNewId | sql_helper/mixins/guild_messages.py:13 | A new id is inserted as a new row after the existing ones. |
| GuildMessages.UpsertChangesOnlyContent | sql_helper/mixins/guild_messages.py:13 | For a known id only `content` changes. Every other column and row stays. |
| GuildMessages.AddGuildMessage | sql_helper/mixins/guild_messages.py:10-24 | Content with a NUL changes nothing (the error is swallowed). Otherwise the message's content is stored. Other ids are untouched and ids stay unique. |
| GuildMessages.AddEach | sql_helper/mixins/guild_messages.py:51-61 | The one-by-one fallback leaves ids outside the batch untouched and keeps ids unique. |
| GuildMessages.AddGuildMessageBulk | sql_helper/mixins/guild_messages.py:26-61 | Fails iff no message has a NUL but two share an id. Otherwise the table equals the one-by-one upsert of every message. |
| GuildMessages.AddEachStoresEach | sql_helper/mixins/guild_messages.py:51-61 | Each id ends up with the content of its last message without a NUL. |
| GuildMessages.BulkStoresEveryStorableMessage | sql_helper/mixins/guild_messages.py:26-61 | Whenever the bulk call succeeds, every message that would not fail on its own is stored. |
| GuildMessages.BulkWithoutNulStoresAll | sql_helper/mixins/guild_messages.py:26-48 | With no NUL and distinct ids, the bulk call succeeds and stores each message's own content. |
| Premium.CrossProduct | sql_helper/mixins/premium.py:21 | The `CROSS JOIN` holds exactly the pairs of a listed guild and a listed feature. |
| Premium.AddGuildFeature | sql_helper/mixins/premium.py:18-24 | A no-op when either list is empty. Otherwise a pair is present afterwards iff it was before or is in the cross product. |
| Premium.AddGuildFeatureIdempotent | sql_helper/mixins/premium.py:18-24 | Adding the same features twice equals adding them once. |
| Premium.RemoveGuildFeature | sql_helper/mixins/premium.py:26-41 | A no-op when either list is empty. Otherwise: exactly the cross-product pairs are deleted; for listed guilds with settings, removing `USER_CONTENT` turns user content on and removing `EMOTE_ROLES` clears the nitro role; other settings are unchanged. |
| Premium.EnableUserContent | sql_helper/mixins/premium.py:32-36 | Sets `enable_user_content` for exactly the listed guilds that have settings. |
| Premium.ClearNitroRole | sql_helper/mixins/premium.py:37-41 | Clears `nitro_role` for exactly the listed guilds that have settings. |
| Premium.RemoveUndoesAdd | sql_helper/mixins/premium.py:18-31 | Removing features undoes adding them, for pairs that were not present before. |
| Premium.SetPremiumUser | sql_helper/mixins/premium.py:43-58 | Inserts or overwrites every listed column, tokens included. Other supporters are unchanged. The unlisted pledge is kept for an existing row and null for a new one. |
| Premium.SetPremiumUserIdempotent | sql_helper/mixins/premium.py:43-58 | Writing the same supporter twice equals writing it once. |
| Premium.UpdateOne | sql_helper/mixins/premium.py:92-96 | One row of the upsert adds or replaces only that supporter. |
| Premium.UpdateEach | sql_helper/mixins/premium.py:92-96 | The batch touches only its own supporters. New supporters start with 0 tokens and 0 spent; existing ones keep theirs. |
| Premium.UpdatePremiumUsers | sql_helper/mixins/premium.py:76-105 | An empty batch does nothing. Otherwise it fails iff two users share a patreon id, and on success it upserts every user without touching tokens. |
| Premium.UpdatePremiumUsersWritesEach | sql_helper/mixins/premium.py:92-96 | After a successful sync, each batch user's row holds that user's discord id, support cents, last charge date and status, and pledge. |
| Premium.SetThenUpdateKeepsTokens | sql_helper/mixins/premium.py:76-105 | The tokens and tokens spent that `set_premium_user` wrote survive any successful Patreon sync. |
| Premium.UpdateEachWritesEach | sql_helper/mixins/premium.py:92-96 | With distinct patreon ids, each supporter's row carries the batch's discord id, support cents, charge date and status, and pledge. |
| GuildSettingsRecord.ParseBoolean | sql_helper/guild_settings.py:45-46 | A stored flag is kept, `False` included. A missing one becomes `on_none`. |
| GuildSettingsRecord.ParseBooleanSettles | sql_helper/guild_settings.py:45-46 | Parsing an already parsed flag changes nothing. With a default, the result is never `None`. |
| GuildSettingsRecord.Flag | sql_helper/guild_settings.py:45-46 | With the default `on_none=True`, a flag is on iff it is not stored as `False`. |
| GuildSettingsRecord.NewGuildSettings | sql_helper/guild_settings.py:19-43 | The six plain fields are kept as given. Exactly the five flags are parsed, each on iff not stored as `False`. |
| GuildSettingsRecord.NewGuildSettingsRoundTrip | sql_helper/guild_settings.py:19-43 | Building settings from existing settings' own values gives them back. |
| GuildSettingsRecord.NullFlagsAreOn | sql_helper/guild_settings.py:39-46 | A row with every flag `NULL` has every flag on. |
| Webhooks.Url | sql_helper/webhook.py:16-18 | The URL is the fixed prefix, the id, a slash and the token. |
| Webhooks.FirstSlash | sql_helper/webhook.py:18 | The position of the first `/`, with none before it. |
| Webhooks.ParseUrl | sql_helper/webhook.py:16-18 | A URL read back splits into a slash-free id and a token that rebuild it exactly. |
| Webhooks.UrlRoundTrip | sql_helper/webhook.py:16-18 | For an id without `/`, reading the URL back gives the id and the token. |
| Webhooks.FirstSlashAfterId | sql_helper/webhook.py:18 | In `id/token`, the first slash follows the id. |
| Webhooks.EqIsEquivalence | sql_helper/webhook.py:20-23 | `__eq__` is reflexive, symmetric and transitive on webhooks, and decided by the id alone. It is never true against a non-webhook. |
| Webhooks.ParseInt | sql_helper/webhook.py:26 | `int(s)` succeeds iff `s` is an optional sign followed by at least one decimal digit. |
| Webhooks.Hash | sql_helper/webhook.py:25-26 | `__hash__` succeeds only for an id that is a signed decimal number. |
| Webhooks.EqualWebhooksHashAlike | sql_helper/webhook.py:20-26 | Equal webhooks have equal hashes (or both raise). |
| Webhooks.Decimal | sql_helper/webhook.py:26 | The decimal spelling of a number is a non-empty run of digits. |
| Webhooks.DecimalRoundTrip | sql_helper/webhook.py:26 | Reading back a number's decimal spelling gives the number. |
| Webhooks.HashOfDecimalId | sql_helper/webhook.py:25-26 | A webhook whose id is the decimal spelling of `n` hashes to `n`. |

## Left out

- Connection and pool lifecycle (sql_helper/_connection.py, sql_helper/connection.py), Prometheus timing (sql_helper/metrics.py) and the async-iteration wrapper (sql_helper/async_list.py). These are I/O plumbing with no decision logic.
- `_get_emoji` / `_get_guild`, the conversions to discord.py objects. They are foreign calls, taken as the identity on the selected record.
- The `random()` of the score bump. It is replaced by an explicit draw per row; the distribution is not modelled.
- Concurrency: racing bumps, overlapping decay runs and transaction isolation.
- The scheduling of decay. `Scores.DecayTimes` applies a given number of ticks.
- The other reads and single-statement updates of the core files, which hold no decision logic beyond one WHERE clause:
  - `alternative_emote_names`, `get_mega_emotes` (a regex), `share_hashes`, `set_emote_guild`, `set_emote_usability`, `daily_scores_for_emotes` and the remaining emote listings of sql_helper/mixins/emojis.py;
  - `get_user_aliases`, `get_blocked_emotes`, `get_blocked_emote_by_name` and `get_guilds_with_blocked_emojis`;
  - `guild_features`, `get_premium_user_discord_ids`, `get_premium_guild_ids` and the two premium-user reads;
  - `get_guild_messages` (its `ORDER BY message_id DESC LIMIT/OFFSET` paging) and `delete_guild_message`.
- `get_user_alias_name`. Its `%(name)` placeholder (sql_helper/mixins/aliases.py:18) is malformed, so the statement cannot run as written.
- The thin CRUD mixins (packs, personas, webhooks, members, guild settings reads, emoji hashes, emoji usage, command messages). They have no decision logic.
- Unicode `lower()` and the database collation. Case folding is a parameter (`Ctx.fold`; an ASCII fold in the worked examples), and names are ordered by code point (the "C" collation). The prefix search folds the prefix with Python's `str.lower()` and the stored name with SQL `lower()`; the model takes both to be the same fold `fold`, which they need not be on non-ASCII text.
- `char(n)` padding semantics in comparisons. Names are compared as stored, with `trim()`/`rstrip(" ")` applied only where the queries apply them.
- Python `int()`'s acceptance of surrounding whitespace, underscores and non-ASCII digits. `Webhooks.ParseInt` accepts only an optional sign and ASCII digits.
- The `guild_features_enum` values other than `USER_CONTENT` and `EMOTE_ROLES`. sql_helper/guild_feature.py is not part of this model.
- A SQL `NULL` in `usable`, `has_roles` or `manual_block`. These columns are plain booleans here. The queries test them with `=true`/`=false`, which a `NULL` never satisfies.
- The column defaults for a new row: `emote_ids` (`manual_block` false, `score` 0) and `premium_users.pledge_id`, which `set_premium_user` does not write and the model takes to be NULL. The schema is not part of this model.
- The order of rows from a `union`, a join or an insert, which SQL leaves unspecified. The model fixes one order and the contracts speak of membership only.
- tests/test_emotes.py:119-127, the eighth resolution case. It cannot arise from a real table (`Resolver.RepeatedCopySearchFindsNothing`).
- Scores.GuildEmoteScores: says only that each value comes from one of the emote's rows, not which one. Under the primary key there is exactly one (`Scores.GuildScoresAgreeWithEmoteScore`).
- Premium.SetPremiumUser: the charge status is assumed to reach the database as its string value. The code passes the `PremiumLastChargeStatus` member itself (sql_helper/mixins/premium.py:54), and no adapter for that plain `Enum` is registered, so psycopg2 would most likely refuse it; that failure is not modelled.
- Premium.UpdatePremiumUsers: callers are assumed to pass objects carrying a `pledge_id`. With the declared `PremiumUser` tuple (sql_helper/premium_user.py:4-7), reading `user.pledge_id` (sql_helper/mixins/premium.py:91) raises `AttributeError` on any non-empty batch; that failure is not modelled. Nor is the failure when a nullable column (`discord_id`, `last_charge_date`, `last_charge_status` or `pledge_id`) is `None` for every user of the batch. The column is then sent to `unnest` (sql_helper/mixins/premium.py:92-94) as an array of nothing but NULLs, with no usable element type. PostgreSQL most likely rejects such a statement, and nothing catches the error. The model instead reports success whenever no patreon id repeats.
- Emotes.SetPerceptualData: a NULL name (`name: Optional[str]` at sql_helper/mixins/emojis.py:143) cannot be written; `EmoteRow.name` is a plain string. A row with a NULL name never matches a name lookup (`trim(NULL)` equals nothing) and `get_emote_like` would return it with no name.
- Aliases.SetUserAliases: an empty batch is modelled as storing nothing and succeeding. The driver sends an empty list as an untyped `'{}'`, which `unnest` cannot resolve, so PostgreSQL most likely rejects the statement.
- BlockedEmotes.BlockEmotes: an empty batch is modelled as a no-op; like `set_user_aliases`, the statement most likely fails on the untyped empty array.
- GuildMessages.AddGuildMessageBulk: an empty batch is modelled as a no-op. The untyped empty array most likely makes the statement fail with a database error, which the `ValueError` fallback does not catch.
- Scores.Bump: an empty batch is modelled as bumping nothing; the statement most likely fails on the untyped empty array instead.
- BlockedEmotes.SearchRows: its own contract gives size and provenance only. The ordering guarantees are in `BlockedEmotes.SearchRowsOrdered`.
- BlockedEmotes.PrefixRows: its own contract gives size and provenance only. The ordering guarantees are in `BlockedEmotes.PrefixRowsOrdered`.

## Findings

| source | as written | input that shows it | evidently intended | confidence | as-written member | corrected member |
|---|---|---|---|---|---|---|
| sql_helper/mixins/emojis.py:414-430 | The exact-name step takes the first row whose trimmed name equals the request, usable or not. If that row is unusable, the resolver substitutes a same-image copy, whatever its name, or falls back to case-insensitive matches. | Searching for `test` in rows (1, `test`, unusable, hash h1, guild 7), (2, `test`, usable, hash h2, guild 7), (3, `other`, usable, hash h1, guild 8): the resolver returns row 3, `other`, after two queries, though row 2 is a usable `test`. | A differently named emote only when no usable exactly named emote is in scope, as the property test at tests/test_emotes.py:171-172 asserts. Its mock hides the case because it ignores the hash in the copy search. | medium, not executed | Resolver.AsWrittenSkipsUsableExactMatch | Resolver.ResolveCorrected |

=== FILE: aliases.dfy ===
/** `sql_helper/mixins/aliases.py`: a user's personal emote aliases, keyed by user
    and alias name, and the row decoding shared with the blocked-emote listing. */
module Aliases {
  import opened Common
  import opened Text

  /** The emote reference handed to callers (`discord.PartialEmoji`). */
  datatype PartialEmoji = PartialEmoji(animated: bool, name: string, id: int)

  /** `_get_emotes`: decode `(animated, name, id)` rows, stripping the trailing
      padding of the name. */
  function DecodeEmotes(rows: seq<(bool, string, int)>): (r: seq<PartialEmoji>)
    ensures |r| == |rows|
    ensures forall i :: 0 <= i < |rows| ==>
      r[i].animated == rows[i].0 && r[i].id == rows[i].2 && r[i].name == TrimEnd(rows[i].1)
  {
    seq(|rows|, i requires 0 <= i < |rows| => PartialEmoji(rows[i].0, TrimEnd(rows[i].1), rows[i].2))
  }

  /** Each decoded name is the stored name with only its trailing spaces removed:
      the stored name is the decoded one followed by spaces. */
  lemma DecodedNameKeepsContent(rows: seq<(bool, string, int)>, i: int)
    requires 0 <= i < |rows|
    ensures var n := DecodeEmotes(rows)[i].name;
      |n| <= |rows[i].1| && rows[i].1 == n + rows[i].1[|n|..]
      && (forall c :: c in rows[i].1[|n|..] ==> c == ' ')
      && (|n| > 0 ==> n[|n| - 1] != ' ')
  {
    TrimEndSplits(rows[i].1);
    TrimEndKeepsPrefix(rows[i].1);
  }

  /** `_list_to_optional`: the first element, or `None` for an empty list. */
  function ListToOptional<T>(lst: seq<T>): (r: Option<T>)
    ensures |lst| == 0 <==> r.None?
    ensures |lst| > 0 ==> r == Some(lst[0])
  {
    if |lst| > 0 then Some(lst[0]) else None
  }

  /** The list of at most one element an optional value stands for. */
  function OptionToList<T>(o: Option<T>): (r: seq<T>)
    ensures |r| <= 1
  {
    match o
    case None => []
    case Some(x) => [x]
  }

  /** `_list_to_optional` inverts `OptionToList`, and on lists of at most one
      element `OptionToList` inverts it: nothing is lost on a `LIMIT 1` result. */
  lemma ListToOptionalRoundTrip<T>(o: Option<T>, lst: seq<T>)
    ensures ListToOptional(OptionToList(o)) == o
    ensures |lst| <= 1 ==> OptionToList(ListToOptional(lst)) == lst
  {
  }

  /** Only the first row counts: rows after it never change the answer. */
  lemma ListToOptionalIgnoresTail<T>(lst: seq<T>, more: seq<T>)
    requires |lst| > 0
    ensures ListToOptional(lst + more) == ListToOptional(lst)
  {
  }

  /** One row of `aliases`; the key (`aliases_pk`) is the user and the alias name. */
  datatype AliasRow = AliasRow(userId: int, emoteId: int, animated: bool, name: string)

  type AliasTable = seq<AliasRow>

  predicate HasKey(row: AliasRow, userId: int, name: string)
  {
    row.userId == userId && row.name == name
  }

  predicate UniqueKeys(table: AliasTable)
  {
    forall i, j :: 0 <= i < j < |table| ==> !HasKey(table[j], table[i].userId, table[i].name)
  }

  /** The alias a user has under `name`, if any. */
  function AliasNamed(table: AliasTable, userId: int, name: string): (r: Option<AliasRow>)
    ensures r.Some? ==> r.value in table && HasKey(r.value, userId, name)
    ensures r.None? <==> forall row :: row in table ==> !HasKey(row, userId, name)
  {
    if |table| == 0 then None
    else if HasKey(table[0], userId, name) then Some(table[0])
    else AliasNamed(table[1..], userId, name)
  }

  /** `set_user_alias`: insert, or on the same key overwrite `emote_id` and `animated`. */
  function SetUserAlias(table: AliasTable, userId: int, alias: PartialEmoji): (r: AliasTable)
    ensures AliasNamed(r, userId, alias.name) == Some(AliasRow(userId, alias.id, alias.animated, alias.name))
    ensures forall row :: !HasKey(row, userId, alias.name) ==> (row in r <==> row in table)
    ensures forall row :: row in r ==> row in table || row == AliasRow(userId, alias.id, alias.animated, alias.name)
    decreases |table|
  {
    if |table| == 0 then [AliasRow(userId, alias.id, alias.animated, alias.name)]
    else if HasKey(table[0], userId, alias.name) then
      [AliasRow(userId, alias.id, alias.animated, alias.name)] + table[1..]
    else [table[0]] + SetUserAlias(table[1..], userId, alias)
  }

  /** The upsert keeps `aliases_pk` a key. */
  lemma {:induction false} SetUserAliasKeepsKeysUnique(table: AliasTable, userId: int, alias: PartialEmoji)
    ensures UniqueKeys(table) ==> UniqueKeys(SetUserAlias(table, userId, alias))
    decreases |table|
  {
    if UniqueKeys(table) && |table| > 0 {
      var r := SetUserAlias(table, userId, alias);
      var t := table[1..];
      assert table == [table[0]] + t;
      UniqueKeysCons(table[0], t);
      if HasKey(table[0], userId, alias.name) {
        UniqueKeysCons(r[0], t);
      } else {
        var rest := SetUserAlias(t, userId, alias);
        SetUserAliasKeepsKeysUnique(t, userId, alias);
        forall x | x in rest
          ensures !HasKey(x, table[0].userId, table[0].name)
        {
          if !HasKey(x, userId, alias.name) {
            assert x in t;
          }
        }
        UniqueKeysCons(table[0], rest);
      }
    }
  }

  /** A table with a head row has unique keys exactly when its tail does and no
      row of the tail shares the head's key. */
  lemma UniqueKeysCons(h: AliasRow, t: AliasTable)
    ensures UniqueKeys([h] + t) <==> UniqueKeys(t) && forall x :: x in t ==> !HasKey(x, h.userId, h.name)
  {
    var r := [h] + t;
    if UniqueKeys(r) {
      forall i, j | 0 <= i < j < |t|
        ensures !HasKey(t[j], t[i].userId, t[i].name)
      {
        assert t[i] == r[i + 1] && t[j] == r[j + 1];
      }
      forall x | x in t
        ensures !HasKey(x, h.userId, h.name)
      {
        var k :| 0 <= k < |t| && t[k] == x;
        assert r[0] == h && r[k + 1] == x;
      }
    }
    if UniqueKeys(t) && forall x :: x in t ==> !HasKey(x, h.userId, h.name) {
      forall i, j | 0 <= i < j < |r|
        ensures !HasKey(r[j], r[i].userId, r[i].name)
      {
        assert r[j] == t[j - 1];
        if i > 0 {
          assert r[i] == t[i - 1];
        }
      }
    }
  }


  /** Two aliases of one batch with the same name. */
  predicate NamesRepeat(aliases: seq<PartialEmoji>)
  {
    exists i, j :: 0 <= i < j < |aliases| && aliases[i].name == aliases[j].name
  }

  /** `row` is the row one alias of the batch writes for `userId`. */
  predicate FromBatch(row: AliasRow, userId: int, aliases: seq<PartialEmoji>)
  {
    exists a :: a in aliases && row == AliasRow(userId, a.id, a.animated, a.name)
  }

  /** A row whose key no alias of the batch names. */
  predicate Untouched(row: AliasRow, userId: int, aliases: seq<PartialEmoji>)
  {
    row.userId != userId || forall a :: a in aliases ==> a.name != row.name
  }

  function SetEach(table: AliasTable, userId: int, aliases: seq<PartialEmoji>): (r: AliasTable)
    ensures forall a :: a in aliases ==> AliasNamed(r, userId, a.name).Some?
    ensures forall row :: row in table && row.userId != userId ==> row in r
    ensures UniqueKeys(table) ==> UniqueKeys(r)
    decreases |aliases|
  {
    if |aliases| == 0 then table
    else
      var last := aliases[|aliases| - 1];
      var before := SetEach(table, userId, aliases[..|aliases| - 1]);
      var r := SetUserAlias(before, userId, last);
      SetUserAliasKeepsKeysUnique(before, userId, last);
      assert forall a :: a in aliases[..|aliases| - 1] ==> AliasNamed(r, userId, a.name).Some? by {
        forall a | a in aliases[..|aliases| - 1]
          ensures AliasNamed(r, userId, a.name).Some?
        {
          if a.name != last.name {
            var row := AliasNamed(before, userId, a.name).value;
            assert row in r;
          }
        }
      }
      r
  }

  /** The batch keeps every row whose key it does not name, and adds nothing but
      the rows its aliases write. */
  lemma {:induction false} SetEachFrame(table: AliasTable, userId: int, aliases: seq<PartialEmoji>)
    ensures var r := SetEach(table, userId, aliases);
      forall row :: row in table && Untouched(row, userId, aliases) ==> row in r
    ensures var r := SetEach(table, userId, aliases);
      forall row :: row in r ==> row in table || FromBatch(row, userId, aliases)
    decreases |aliases|
  {
    if |aliases| > 0 {
      var init := aliases[..|aliases| - 1];
      var last := aliases[|aliases| - 1];
      var before := SetEach(table, userId, init);
      var r := SetEach(table, userId, aliases);
      assert r == SetUserAlias(before, userId, last);
      assert last in aliases;
      SetEachFrame(table, userId, init);
      forall row | row in table && Untouched(row, userId, aliases)
        ensures row in r
      {
        assert Untouched(row, userId, init);
      }
      forall row | row in r && row !in table
        ensures FromBatch(row, userId, aliases)
      {
        if row in before {
          var a :| a in init && row == AliasRow(userId, a.id, a.animated, a.name);
          assert a in aliases;
        }
      }
    }
  }

  /** `set_user_aliases`: one bulk upsert. A batch repeating a name makes the
      statement fail and changes nothing; otherwise every alias is stored. */
  function SetUserAliases(table: AliasTable, userId: int, aliases: seq<PartialEmoji>): (r: Result<AliasTable, DbError>)
    ensures r.Failure? <==> NamesRepeat(aliases)
    ensures r.Success? ==> forall a :: a in aliases ==>
      AliasNamed(r.value, userId, a.name) == Some(AliasRow(userId, a.id, a.animated, a.name))
    ensures r.Success? ==> forall row :: row in table && Untouched(row, userId, aliases) ==> row in r.value
    ensures r.Success? ==> forall row :: row in r.value ==> row in table || FromBatch(row, userId, aliases)
    ensures r.Success? && UniqueKeys(table) ==> UniqueKeys(r.value)
  {
    if NamesRepeat(aliases) then Failure(CardinalityViolation)
    else
      var stored := SetEach(table, userId, aliases);
      SetEachStoresEach(table, userId, aliases);
      SetEachFrame(table, userId, aliases);
      Success(stored)
  }

  /** With distinct names, each alias of the batch ends up stored exactly as given. */
  lemma {:induction false} SetEachStoresEach(table: AliasTable, userId: int, aliases: seq<PartialEmoji>)
    requires !NamesRepeat(aliases)
    ensures forall a :: a in aliases ==>
      AliasNamed(SetEach(table, userId, aliases), userId, a.name) == Some(AliasRow(userId, a.id, a.animated, a.name))
    decreases |aliases|
  {
    if |aliases| > 0 {
      var init := aliases[..|aliases| - 1];
      var last := aliases[|aliases| - 1];
      DistinctPrefix(aliases);
      SetEachStoresEach(table, userId, init);
      var before := SetEach(table, userId, init);
      var r := SetEach(table, userId, aliases);
      assert r == SetUserAlias(before, userId, last);
      forall a | a in aliases
        ensures AliasNamed(r, userId, a.name) == Some(AliasRow(userId, a.id, a.animated, a.name))
      {
        if a != last {
          LastNameIsNew(aliases, a);
          SetUserAliasKeepsOthers(before, userId, last, userId, a.name);
        }
      }
    }
  }

  lemma DistinctPrefix(aliases: seq<PartialEmoji>)
    requires |aliases| > 0 && !NamesRepeat(aliases)
    ensures !NamesRepeat(aliases[..|aliases| - 1])
  {
  }

  lemma LastNameIsNew(aliases: seq<PartialEmoji>, a: PartialEmoji)
    requires |aliases| > 0 && !NamesRepeat(aliases)
    requires a in aliases[..|aliases| - 1]
    ensures a.name != aliases[|aliases| - 1].name
  {
    var k :| 0 <= k < |aliases| - 1 && aliases[..|aliases| - 1][k] == a;
    assert aliases[k] == a;
  }

  /** An upsert leaves what every other key resolves to unchanged. */
  lemma {:induction false} SetUserAliasKeepsOthers(table: AliasTable, userId: int, alias: PartialEmoji, u: int, n: string)
    requires u != userId || n != alias.name
    ensures AliasNamed(SetUserAlias(table, userId, alias), u, n) == AliasNamed(table, u, n)
    decreases |table|
  {
    var r := SetUserAlias(table, userId, alias);
    if |table| == 0 {
      assert AliasNamed(r[1..], u, n) == None;
    } else if HasKey(table[0], userId, alias.name) {
      assert r[1..] == table[1..];
    } else {
      SetUserAliasKeepsOthers(table[1..], userId, alias, u, n);
      assert r[1..] == SetUserAlias(table[1..], userId, alias);
    }
  }

  /** `delete_user_alias`: remove the user's alias with that name. */
  function DeleteUserAlias(table: AliasTable, userId: int, name: string): (r: AliasTable)
    ensures forall row :: row in r <==> row in table && !HasKey(row, userId, name)
    ensures AliasNamed(r, userId, name).None?
  {
    if |table| == 0 then []
    else if HasKey(table[0], userId, name) then DeleteUserAlias(table[1..], userId, name)
    else [table[0]] + DeleteUserAlias(table[1..], userId, name)
  }

  /** `delete_all_user_aliases`: remove all and only the user's aliases. */
  function DeleteAllUserAliases(table: AliasTable, userId: int): (r: AliasTable)
    ensures forall row :: row in r <==> row in table && row.userId != userId
  {
    if |table| == 0 then []
    else if table[0].userId == userId then DeleteAllUserAliases(table[1..], userId)
    else [table[0]] + DeleteAllUserAliases(table[1..], userId)
  }

  /** Setting an alias and deleting it again leaves the user's other aliases and
      everyone else's as they were, and nothing under that name. */
  lemma SetThenDelete(table: AliasTable, userId: int, alias: PartialEmoji)
    ensures var r := DeleteUserAlias(SetUserAlias(table, userId, alias), userId, alias.name);
      forall row :: row in r <==> row in table && !HasKey(row, userId, alias.name)
  {
  }
}

=== FILE: blocked.dfy ===
/** `sql_helper/mixins/blocked_emojis.py`: the emotes a guild has blocked. An emote
    counts as blocked in a guild when the guild blocked that id, or when it shares
    its (non-null) perceptual hash with an emote the guild blocked. */
module BlockedEmotes {
  import opened Common
  import opened Text
  import opened Ranking
  import opened Emotes
  import opened Aliases

  /** One row of `blocked_emotes`, keyed by guild and emote id. */
  datatype BlockedRow = BlockedRow(guildId: int, emoteId: int, name: string, animated: bool, emoteHash: Option<string>)

  type BlockTable = seq<BlockedRow>

  predicate UniqueKeys(blocked: BlockTable)
  {
    forall i, j :: 0 <= i < j < |blocked| ==>
      blocked[i].guildId != blocked[j].guildId || blocked[i].emoteId != blocked[j].emoteId
  }

  predicate HasKey(blocked: BlockTable, guildId: int, emoteId: int)
  {
    exists b :: b in blocked && b.guildId == guildId && b.emoteId == emoteId
  }

  /** The reference condition: `x` is blocked in the guild by its id, or some
      `emote_ids` row for `x` has a hash equal to that of one of the guild's blocks. */
  predicate Blocked(blocked: BlockTable, emotes: Store, guildId: int, x: int)
  {
    HasKey(blocked, guildId, x)
    || exists b, e :: b in blocked && e in emotes && b.guildId == guildId
         && e.emoteId == x && SqlEq(e.emoteHash, b.emoteHash)
  }

  /** `has_blocked_emotes`, as its two `exists` subqueries: a block of the guild
      whose id is one of the ids, or whose hash is among the hashes of the ids. */
  predicate HasBlockedEmotes(blocked: BlockTable, emotes: Store, guildId: int, ids: seq<int>)
  {
    (exists b :: b in blocked && b.guildId == guildId && b.emoteId in ids)
    || (exists b, e :: b in blocked && e in emotes && b.guildId == guildId
          && e.emoteId in ids && SqlEq(b.emoteHash, e.emoteHash))
  }

  /** `emotes_blocked`: the `union` of the two selects, without duplicates. Rows
      come back in an order SQL leaves open; the model keeps the order of `ids`. */
  function EmotesBlocked(blocked: BlockTable, emotes: Store, guildId: int, ids: seq<int>): (r: seq<int>)
    ensures forall x :: x in r <==> x in ids && Blocked(blocked, emotes, guildId, x)
    ensures NoDuplicates(r)
    decreases |ids|
  {
    if |ids| == 0 then []
    else
      var x := ids[|ids| - 1];
      var rest := EmotesBlocked(blocked, emotes, guildId, ids[..|ids| - 1]);
      assert ids == ids[..|ids| - 1] + [x];
      if x in rest || !Blocked(blocked, emotes, guildId, x) then rest else rest + [x]
  }

  /** `has_blocked_emotes` and `emotes_blocked` agree: the first holds exactly when
      the second returns something. */
  lemma HasBlockedIffSomeBlocked(blocked: BlockTable, emotes: Store, guildId: int, ids: seq<int>)
    ensures HasBlockedEmotes(blocked, emotes, guildId, ids) <==> |EmotesBlocked(blocked, emotes, guildId, ids)| > 0
  {
    var r := EmotesBlocked(blocked, emotes, guildId, ids);
    if HasBlockedEmotes(blocked, emotes, guildId, ids) {
      if b :| b in blocked && b.guildId == guildId && b.emoteId in ids {
        assert Blocked(blocked, emotes, guildId, b.emoteId);
        assert b.emoteId in r;
      } else {
        var b, e :| b in blocked && e in emotes && b.guildId == guildId
          && e.emoteId in ids && SqlEq(b.emoteHash, e.emoteHash);
        assert Blocked(blocked, emotes, guildId, e.emoteId);
        assert e.emoteId in r;
      }
    }
    if |r| > 0 {
      assert r[0] in r;
    }
  }

  /** The hash `block_emotes` stores for an id: that of its `emote_ids` row (the
      left join), `NULL` when there is none. */
  function HashOf(emotes: Store, emoteId: int): (h: Option<string>)
    ensures h.Some? ==> exists e :: e in emotes && e.emoteId == emoteId && e.emoteHash == h
    ensures (forall e :: e in emotes ==> e.emoteId != emoteId) ==> h.None?
    // the hash of the first row with that id (the only one, under the primary key)
    ensures forall i :: (0 <= i < |emotes| && emotes[i].emoteId == emoteId
      && (forall j :: 0 <= j < i ==> emotes[j].emoteId != emoteId)) ==> h == emotes[i].emoteHash
  {
    if |emotes| == 0 then None
    else if emotes[0].emoteId == emoteId then emotes[0].emoteHash
    else HashOf(emotes[1..], emoteId)
  }

  /** The row `block_emotes` proposes for one emote. */
  function NewBlock(emotes: Store, guildId: int, e: PartialEmoji): BlockedRow
  {
    BlockedRow(guildId, e.id, e.name, e.animated, HashOf(emotes, e.id))
  }

  /** `INSERT ... ON CONFLICT DO NOTHING` of one row. */
  function InsertIfAbsent(blocked: BlockTable, row: BlockedRow): (r: BlockTable)
    ensures HasKey(blocked, row.guildId, row.emoteId) ==> r == blocked
    ensures !HasKey(blocked, row.guildId, row.emoteId) ==> r == blocked + [row]
  {
    if HasKey(blocked, row.guildId, row.emoteId) then blocked else blocked + [row]
  }

  /** Inserting only an absent key keeps the keys unique. */
  lemma InsertIfAbsentKeepsKeysUnique(blocked: BlockTable, row: BlockedRow)
    ensures UniqueKeys(blocked) ==> UniqueKeys(InsertIfAbsent(blocked, row))
  {
    var r := InsertIfAbsent(blocked, row);
    if UniqueKeys(blocked) && !HasKey(blocked, row.guildId, row.emoteId) {
      forall i, j | 0 <= i < j < |r|
        ensures r[i].guildId != r[j].guildId || r[i].emoteId != r[j].emoteId
      {
        if j == |blocked| {
          assert r[i] in blocked;
        }
      }
    }
  }

  /** `block_emotes`: one row per emote, each carrying the hash of its `emote_ids`
      row; a key already present (before or earlier in the batch) is left alone.
      The model takes the emotes in order, so the first of two with one id wins. */
  function BlockEmotes(blocked: BlockTable, emotes: Store, guildId: int, batch: seq<PartialEmoji>): (r: BlockTable)
    ensures forall b :: b in blocked ==> b in r
    ensures forall e :: e in batch ==> HasKey(r, guildId, e.id)
    ensures forall b :: b in r ==>
      (b in blocked || exists e :: e in batch && b == NewBlock(emotes, guildId, e) && !HasKey(blocked, guildId, e.id))
    ensures UniqueKeys(blocked) ==> UniqueKeys(r)
    decreases |batch|
  {
    if |batch| == 0 then blocked
    else
      var init := batch[..|batch| - 1];
      var last := batch[|batch| - 1];
      var before := BlockEmotes(blocked, emotes, guildId, init);
      var row := NewBlock(emotes, guildId, last);
      var r := InsertIfAbsent(before, row);
      assert forall e :: e in batch ==> e in init || e == last;
      assert forall e :: e in init ==> e in batch;
      assert forall b :: b in before ==> b in r;
      assert !HasKey(before, guildId, last.id) ==> !HasKey(blocked, guildId, last.id);
      InsertIfAbsentKeepsKeysUnique(before, row);
      r
  }

  /** Blocking what is already blocked changes nothing, so `block_emotes` is idempotent. */
  lemma {:induction false} BlockEmotesIdempotent(blocked: BlockTable, emotes: Store, guildId: int, batch: seq<PartialEmoji>)
    ensures var once := BlockEmotes(blocked, emotes, guildId, batch);
      BlockEmotes(once, emotes, guildId, batch) == once
  {
    var once := BlockEmotes(blocked, emotes, guildId, batch);
    AlreadyBlockedIsNoOp(once, emotes, guildId, batch);
  }

  lemma {:induction false} AlreadyBlockedIsNoOp(blocked: BlockTable, emotes: Store, guildId: int, batch: seq<PartialEmoji>)
    requires forall e :: e in batch ==> HasKey(blocked, guildId, e.id)
    ensures BlockEmotes(blocked, emotes, guildId, batch) == blocked
    decreases |batch|
  {
    if |batch| > 0 {
      var init := batch[..|batch| - 1];
      assert forall e :: e in init ==> e in batch;
      AlreadyBlockedIsNoOp(blocked, emotes, guildId, init);
      assert batch[|batch| - 1] in batch;
    }
  }

  /** `unblock_emote`: delete the one key, then report whether the guild still has
      any block. */
  function UnblockEmote(blocked: BlockTable, guildId: int, emoteId: int): (r: (BlockTable, bool))
    ensures forall b :: b in r.0 <==> b in blocked && (b.guildId != guildId || b.emoteId != emoteId)
    ensures r.1 <==> exists b :: b in r.0 && b.guildId == guildId
  {
    var kept := KeepOthers(blocked, guildId, emoteId);
    (kept, exists b :: b in kept && b.guildId == guildId)
  }

  function KeepOthers(blocked: BlockTable, guildId: int, emoteId: int): (r: BlockTable)
    ensures forall b :: b in r <==> b in blocked && (b.guildId != guildId || b.emoteId != emoteId)
    ensures multiset(r) <= multiset(blocked)
  {
    if |blocked| == 0 then []
    else
      var rest := KeepOthers(blocked[1..], guildId, emoteId);
      assert blocked == [blocked[0]] + blocked[1..];
      if blocked[0].guildId == guildId && blocked[0].emoteId == emoteId then rest else [blocked[0]] + rest
  }

  /** The guild keeps a block after unblocking exactly when it held a block under
      another id. */
  lemma UnblockReportsOtherBlocks(blocked: BlockTable, guildId: int, emoteId: int)
    ensures UnblockEmote(blocked, guildId, emoteId).1 <==>
      exists b :: b in blocked && b.guildId == guildId && b.emoteId != emoteId
  {
    var kept := UnblockEmote(blocked, guildId, emoteId).0;
    if exists b :: b in blocked && b.guildId == guildId && b.emoteId != emoteId {
      var b :| b in blocked && b.guildId == guildId && b.emoteId != emoteId;
      assert b in kept;
    }
  }

  /** The window `get_blocked_emotes_search` pages through. */
  datatype Ordering = Before | Equal | After

  function NameOf(b: BlockedRow): string
  {
    b.name
  }

  /** The condition each ordering puts on a row's name. */
  predicate InWindow(rowName: string, name: string, ordering: Ordering)
  {
    match ordering
    case Before => Less(rowName, name)
    case Equal => LessEq(name, rowName)
    case After => Less(name, rowName)
  }

  /** The guild's rows whose names fall in the window, in table order. */
  function Candidates(blocked: BlockTable, guildId: int, name: string, ordering: Ordering): (r: BlockTable)
    ensures forall b :: b in r <==> b in blocked && b.guildId == guildId && InWindow(b.name, name, ordering)
    ensures multiset(r) <= multiset(blocked)
  {
    if |blocked| == 0 then []
    else
      var rest := Candidates(blocked[1..], guildId, name, ordering);
      assert blocked == [blocked[0]] + blocked[1..];
      if blocked[0].guildId == guildId && InWindow(blocked[0].name, name, ordering) then [blocked[0]] + rest else rest
  }

  /** `count(*)` of the guild's blocks. */
  function GuildCount(blocked: BlockTable, guildId: int): (n: nat)
    ensures n <= |blocked|
    ensures n == 0 <==> forall b :: b in blocked ==> b.guildId != guildId
  {
    if |blocked| == 0 then 0
    else (if blocked[0].guildId == guildId then 1 else 0) + GuildCount(blocked[1..], guildId)
  }

  /** The rows one search page lists: `before` takes the ten largest names below
      `name` (descending, then reversed when `name` is non-empty); `equal` and
      `after` take the ten smallest names at or above, or above, `name`. */
  function SearchRows(blocked: BlockTable, guildId: int, name: string, ordering: Ordering): (r: BlockTable)
    ensures var c := Candidates(blocked, guildId, name, ordering);
      |r| == (if 10 < |c| then 10 else |c|) && multiset(r) <= multiset(c)
  {
    var c := Candidates(blocked, guildId, name, ordering);
    if ordering == Before then
      var page := TopK(c, NameOf, 10, true);
      ReverseFlipsOrder(page, NameOf);
      if |name| > 0 then Reverse(page) else page
    else TopK(c, NameOf, 10, false)
  }

  /** The page is in ascending name order (for `before`, once reversed), and it
      is the right end of the window: for `before` no row left out sorts after a
      row listed, for `equal` and `after` none sorts before one. */
  lemma SearchRowsOrdered(blocked: BlockTable, guildId: int, name: string, ordering: Ordering)
    ensures var r := SearchRows(blocked, guildId, name, ordering);
      ordering != Before || |name| > 0 ==> Sorted(r, NameOf, false)
    ensures var r := SearchRows(blocked, guildId, name, ordering);
      var c := Candidates(blocked, guildId, name, ordering);
      ordering == Before ==> forall x, y :: x in multiset(c) - multiset(r) && y in r ==> LessEq(x.name, y.name)
    ensures var r := SearchRows(blocked, guildId, name, ordering);
      var c := Candidates(blocked, guildId, name, ordering);
      ordering != Before ==> forall x, y :: x in multiset(c) - multiset(r) && y in r ==> LessEq(y.name, x.name)
  {
    var c := Candidates(blocked, guildId, name, ordering);
    if ordering == Before {
      BeforePageOrdered(c, name);
    } else {
      AscendingPageOrdered(c, 10);
    }
  }

  /** The `before` page: the ten largest names, reversed when `name` is non-empty. */
  lemma BeforePageOrdered(c: BlockTable, name: string)
    ensures var page := TopK(c, NameOf, 10, true);
      var r := if |name| > 0 then Reverse(page) else page;
      (|name| > 0 ==> Sorted(r, NameOf, false))
      && forall x, y :: x in multiset(c) - multiset(r) && y in r ==> LessEq(x.name, y.name)
  {
    var page := TopK(c, NameOf, 10, true);
    LargestKept(c);
    if |name| > 0 {
      var r := Reverse(page);
      ReverseFlipsOrder(page, NameOf);
      forall x: BlockedRow, y: BlockedRow | x in multiset(c) - multiset(r) && y in r
        ensures LessEq(x.name, y.name)
      {
        assert y in multiset(r);
        assert y in page;
      }
    }
  }

  /** A descending top ten keeps the largest names. */
  lemma LargestKept(c: BlockTable)
    ensures var page := TopK(c, NameOf, 10, true);
      forall x, y :: x in multiset(c) - multiset(page) && y in page ==> LessEq(x.name, y.name)
  {
    var page := TopK(c, NameOf, 10, true);
    forall x: BlockedRow, y: BlockedRow | x in multiset(c) - multiset(page) && y in page
      ensures LessEq(x.name, y.name)
    {
      assert NotAfter(NameOf(y), NameOf(x), true);
    }
  }

  /** An ascending page of `k` rows (ten for `equal` and `after`, 25 for a prefix)
      keeps the smallest names, in order. */
  lemma AscendingPageOrdered(c: BlockTable, k: nat)
    ensures var r := TopK(c, NameOf, k, false);
      Sorted(r, NameOf, false)
      && forall x, y :: x in multiset(c) - multiset(r) && y in r ==> LessEq(y.name, x.name)
  {
    var r := TopK(c, NameOf, k, false);
    forall x: BlockedRow, y: BlockedRow | x in multiset(c) - multiset(r) && y in r
      ensures LessEq(y.name, x.name)
    {
      assert NotAfter(NameOf(y), NameOf(x), false);
    }
  }

  /** With an empty `name` nothing sorts strictly below it, so the `before` page is
      empty and skipping the reversal makes no difference. */
  lemma BeforeEmptyNameIsEmpty(blocked: BlockTable, guildId: int)
    ensures SearchRows(blocked, guildId, "", Before) == []
  {
    var c := Candidates(blocked, guildId, "", Before);
    if |c| > 0 {
      assert c[0] in c;
      NothingBelowEmpty(c[0].name);
    }
  }

  /** A blocked row as the `(animated, name, emote_id)` triple the queries select. */
  function Columns(rows: BlockTable): (r: seq<(bool, string, int)>)
    ensures |r| == |rows|
    ensures forall i :: 0 <= i < |rows| ==> r[i] == (rows[i].animated, rows[i].name, rows[i].emoteId)
  {
    seq(|rows|, i requires 0 <= i < |rows| => (rows[i].animated, rows[i].name, rows[i].emoteId))
  }

  /** What `_get_emotes` makes of one blocked row. */
  function Decoded(b: BlockedRow): PartialEmoji
  {
    PartialEmoji(b.animated, TrimEnd(b.name), b.emoteId)
  }

  /** `_get_emotes` applied to blocked rows. */
  function DecodeRows(rows: BlockTable): (r: seq<PartialEmoji>)
    ensures |r| == |rows|
    ensures forall i :: 0 <= i < |rows| ==> r[i] == Decoded(rows[i])
    ensures forall e :: e in r ==> exists b :: b in rows && e == Decoded(b)
  {
    var page := DecodeEmotes(Columns(rows));
    assert forall i :: 0 <= i < |rows| ==> page[i] == Decoded(rows[i]);
    page
  }

  lemma SubMultisetMembers<T>(small: seq<T>, large: seq<T>)
    requires multiset(small) <= multiset(large)
    ensures forall x :: x in small ==> x in large
  {
    forall x | x in small
      ensures x in large
    {
      assert x in multiset(small);
    }
  }

  /** `get_blocked_emotes_search`: the guild's total number of blocks and one page. */
  function Search(blocked: BlockTable, guildId: int, name: string, ordering: Ordering): (r: (nat, seq<PartialEmoji>))
    ensures r.0 == GuildCount(blocked, guildId)
    ensures var c := Candidates(blocked, guildId, name, ordering);
      |r.1| == (if 10 < |c| then 10 else |c|) && |r.1| <= r.0
    ensures forall e :: e in r.1 ==>
      exists b :: b in blocked && b.guildId == guildId && InWindow(b.name, name, ordering) && e == Decoded(b)
  {
    var rows := SearchRows(blocked, guildId, name, ordering);
    var c := Candidates(blocked, guildId, name, ordering);
    CandidatesCounted(blocked, guildId, name, ordering);
    SubMultisetMembers(rows, c);
    var page := DecodeRows(rows);
    forall e | e in page
      ensures exists b :: b in blocked && b.guildId == guildId && InWindow(b.name, name, ordering) && e == Decoded(b)
    {
      var b :| b in rows && e == Decoded(b);
      assert b in c;
    }
    (GuildCount(blocked, guildId), page)
  }

  /** `page` decodes `rows` position by position. */
  predicate DecodesRows(page: seq<PartialEmoji>, rows: BlockTable)
  {
    |page| == |rows| && forall i :: 0 <= i < |rows| ==> page[i] == Decoded(rows[i])
  }

  /** `rows` is a page of `k` rows cut from the window `c`: as many rows as the
      limit allows, all from `c`, in ascending name order, and taken from the
      low end (`fromTop` false) or the high end (`fromTop` true) of `c`. */
  predicate PageOfWindow(c: BlockTable, rows: BlockTable, k: nat, fromTop: bool)
  {
    && |rows| == (if k < |c| then k else |c|)
    && multiset(rows) <= multiset(c)
    && Sorted(rows, NameOf, false)
    && (fromTop ==> forall x, y :: x in multiset(c) - multiset(rows) && y in rows ==> LessEq(x.name, y.name))
    && (!fromTop ==> forall x, y :: x in multiset(c) - multiset(rows) && y in rows ==> LessEq(y.name, x.name))
  }

  /** The page `get_blocked_emotes_search` returns decodes, position by position,
      ten rows of the window in ascending order of their stored names: for `before`
      the ten largest names below `name`, for `equal` and `after` the ten smallest
      at or above it. The order is that of the stored names; stripping trailing
      spaces may reorder names that hold characters below `' '`. */
  lemma SearchPageOrdered(blocked: BlockTable, guildId: int, name: string, ordering: Ordering)
    ensures exists rows :: (DecodesRows(Search(blocked, guildId, name, ordering).1, rows)
      && PageOfWindow(Candidates(blocked, guildId, name, ordering), rows, 10, ordering == Before))
  {
    var rows := SearchRows(blocked, guildId, name, ordering);
    SearchRowsPage(blocked, guildId, name, ordering);
    assert DecodesRows(Search(blocked, guildId, name, ordering).1, rows);
  }

  /** The rows behind the search page form a page of the window. */
  lemma SearchRowsPage(blocked: BlockTable, guildId: int, name: string, ordering: Ordering)
    ensures PageOfWindow(Candidates(blocked, guildId, name, ordering), SearchRows(blocked, guildId, name, ordering), 10, ordering == Before)
  {
    SearchRowsOrdered(blocked, guildId, name, ordering);
    if ordering == Before && |name| == 0 {
      BeforeEmptyNameIsEmpty(blocked, guildId);
    }
  }

  /** A window never holds more rows than the guild has. */
  lemma {:induction false} CandidatesCounted(blocked: BlockTable, guildId: int, name: string, ordering: Ordering)
    ensures |Candidates(blocked, guildId, name, ordering)| <= GuildCount(blocked, guildId)
  {
    if |blocked| > 0 {
      CandidatesCounted(blocked[1..], guildId, name, ordering);
    }
  }

  /** `starts_with`. */
  predicate StartsWith(s: string, prefix: string)
  {
    |prefix| <= |s| && s[..|prefix|] == prefix
  }

  /** The guild's rows whose case-folded name starts with the case-folded prefix. */
  function PrefixCandidates(blocked: BlockTable, guildId: int, prefix: string, fold: string -> string): (r: BlockTable)
    ensures forall b :: b in r <==> b in blocked && b.guildId == guildId && StartsWith(fold(b.name), fold(prefix))
    ensures multiset(r) <= multiset(blocked)
  {
    if |blocked| == 0 then []
    else
      var rest := PrefixCandidates(blocked[1..], guildId, prefix, fold);
      assert blocked == [blocked[0]] + blocked[1..];
      if blocked[0].guildId == guildId && StartsWith(fold(blocked[0].name), fold(prefix)) then [blocked[0]] + rest else rest
  }

  /** The rows `get_blocked_emotes_with_prefix` lists: the first 25 such rows by name. */
  function PrefixRows(blocked: BlockTable, guildId: int, prefix: string, fold: string -> string): (r: BlockTable)
    ensures var c := PrefixCandidates(blocked, guildId, prefix, fold);
      |r| == (if 25 < |c| then 25 else |c|) && multiset(r) <= multiset(c)
  {
    TopK(PrefixCandidates(blocked, guildId, prefix, fold), NameOf, 25, false)
  }

  /** The prefix page is in name order, and no matching row left off it sorts
      before a row on it. */
  lemma PrefixRowsOrdered(blocked: BlockTable, guildId: int, prefix: string, fold: string -> string)
    ensures Sorted(PrefixRows(blocked, guildId, prefix, fold), NameOf, false)
    ensures var r := PrefixRows(blocked, guildId, prefix, fold);
      var c := PrefixCandidates(blocked, guildId, prefix, fold);
      forall x, y :: x in multiset(c) - multiset(r) && y in r ==> LessEq(y.name, x.name)
  {
    AscendingPageOrdered(PrefixCandidates(blocked, guildId, prefix, fold), 25);
  }

  /** `get_blocked_emotes_with_prefix`: the decoded page. */
  function WithPrefix(blocked: BlockTable, guildId: int, prefix: string, fold: string -> string): (r: seq<PartialEmoji>)
    ensures var c := PrefixCandidates(blocked, guildId, prefix, fold);
      |r| == (if 25 < |c| then 25 else |c|)
    ensures forall e :: e in r ==>
      exists b :: b in blocked && b.guildId == guildId && StartsWith(fold(b.name), fold(prefix)) && e == Decoded(b)
  {
    var rows := PrefixRows(blocked, guildId, prefix, fold);
    var c := PrefixCandidates(blocked, guildId, prefix, fold);
    SubMultisetMembers(rows, c);
    var page := DecodeRows(rows);
    forall e | e in page
      ensures exists b :: b in blocked && b.guildId == guildId && StartsWith(fold(b.name), fold(prefix)) && e == Decoded(b)
    {
      var b :| b in rows && e == Decoded(b);
      assert b in c;
    }
    page
  }

  /** The page `get_blocked_emotes_with_prefix` returns decodes, position by
      position, the 25 matching rows with the smallest stored names, in ascending
      order. */
  lemma WithPrefixPageOrdered(blocked: BlockTable, guildId: int, prefix: string, fold: string -> string)
    ensures exists rows :: (DecodesRows(WithPrefix(blocked, guildId, prefix, fold), rows)
      && PageOfWindow(PrefixCandidates(blocked, guildId, prefix, fold), rows, 25, false))
  {
    var rows := PrefixRows(blocked, guildId, prefix, fold);
    PrefixRowsPage(blocked, guildId, prefix, fold);
    assert DecodesRows(WithPrefix(blocked, guildId, prefix, fold), rows);
  }

  /** The rows behind the prefix page form a page of the matching rows. */
  lemma PrefixRowsPage(blocked: BlockTable, guildId: int, prefix: string, fold: string -> string)
    ensures PageOfWindow(PrefixCandidates(blocked, guildId, prefix, fold), PrefixRows(blocked, guildId, prefix, fold), 25, false)
  {
    PrefixRowsOrdered(blocked, guildId, prefix, fold);
  }

  /** The hash stored with the guild's block of `emoteId`: the scalar subquery of
      `share_hashes_with_blocked_emote`, `NULL` when there is no such block. */
  function BlockedHash(blocked: BlockTable, guildId: int, emoteId: int): (h: Option<string>)
    ensures h.Some? ==> exists b :: b in blocked && b.guildId == guildId && b.emoteId == emoteId && b.emoteHash == h
    ensures !HasKey(blocked, guildId, emoteId) ==> h.None?
    // the hash of the first block with that key (the only one, under the key)
    ensures forall i :: (0 <= i < |blocked| && blocked[i].guildId == guildId && blocked[i].emoteId == emoteId
      && (forall j :: 0 <= j < i ==> blocked[j].guildId != guildId || blocked[j].emoteId != emoteId)) ==> h == blocked[i].emoteHash
  {
    if |blocked| == 0 then None
    else if blocked[0].guildId == guildId && blocked[0].emoteId == emoteId then blocked[0].emoteHash
    else BlockedHash(blocked[1..], guildId, emoteId)
  }

  /** `share_hashes_with_blocked_emote`: the `emote_ids` rows among the targets
      whose hash equals that of the block, in table order. */
  function ShareHashes(blocked: BlockTable, emotes: Store, guildId: int, emoteId: int, targets: seq<int>): (r: seq<int>)
    ensures forall x :: x in r <==>
      (x in targets && exists e :: e in emotes && e.emoteId == x && SqlEq(e.emoteHash, BlockedHash(blocked, guildId, emoteId)))
    ensures BlockedHash(blocked, guildId, emoteId).None? ==> r == []
    decreases |emotes|
  {
    var h := BlockedHash(blocked, guildId, emoteId);
    if |emotes| == 0 then []
    else
      var rest := ShareHashes(blocked, emotes[1..], guildId, emoteId, targets);
      assert emotes == [emotes[0]] + emotes[1..];
      if emotes[0].emoteId in targets && SqlEq(emotes[0].emoteHash, h) then [emotes[0].emoteId] + rest else rest
  }

  /** Every id `share_hashes_with_blocked_emote` reports is itself blocked in the
      guild, and is found by `emotes_blocked` when asked about the targets. */
  lemma SharedHashesAreBlocked(blocked: BlockTable, emotes: Store, guildId: int, emoteId: int, targets: seq<int>)
    ensures forall x :: x in ShareHashes(blocked, emotes, guildId, emoteId, targets) ==>
      x in EmotesBlocked(blocked, emotes, guildId, targets)
  {
    var h := BlockedHash(blocked, guildId, emoteId);
    forall x | x in ShareHashes(blocked, emotes, guildId, emoteId, targets)
      ensures x in EmotesBlocked(blocked, emotes, guildId, targets)
    {
      var e :| e in emotes && e.emoteId == x && SqlEq(e.emoteHash, h);
      var b :| b in blocked && b.guildId == guildId && b.emoteId == emoteId && b.emoteHash == h;
      assert Blocked(blocked, emotes, guildId, x);
    }
  }
}

=== FILE: common.dfy ===
/** Small shared vocabulary: optional values, results with an error, and the two
    ways the data layer tests a nullable value (Python truthiness and SQL equality). */
module Common {

  /** A value that may be absent: Python's `None`, SQL's `NULL`. */
  datatype Option<+T> = None | Some(value: T)

  /** The outcome of an operation that can raise. */
  datatype Result<+T, +E> = Success(value: T) | Failure(error: E)

  /** The error PostgreSQL raises when one `INSERT ... ON CONFLICT DO UPDATE` would
      update the same row twice. */
  datatype DbError = CardinalityViolation

  /** Python truthiness of an optional integer id: both `None` and `0` are false. */
  predicate Truthy(x: Option<int>)
  {
    x.Some? && x.value != 0
  }

  /** SQL `a = b` on nullable columns, read as a WHERE condition: `NULL` matches
      nothing, not even another `NULL`. */
  predicate SqlEq<T(==)>(a: Option<T>, b: Option<T>)
  {
    a.Some? && b.Some? && a.value == b.value
  }

  /** SQL `coalesce(a, b)`. */
  function Coalesce<T>(a: Option<T>, b: Option<T>): (r: Option<T>)
    ensures a.Some? ==> r == a
    ensures a.None? ==> r == b
  {
    if a.Some? then a else b
  }

  /** No value occurs twice. */
  predicate NoDuplicates<T(==)>(s: seq<T>)
  {
    forall i, j :: 0 <= i < j < |s| ==> s[i] != s[j]
  }
}

=== FILE: emotes.dfy ===
/** The `emote_ids` table and the emote lookups of `sql_helper/mixins/emojis.py`:
    every `... LIMIT 1` query is "the first row of the table meeting the WHERE
    clause", and the lookups report how many queries they issued. */
module Emotes {
  import opened Common
  import opened Text

  /** A signed byte, the range of the `score` column (`"char"`). */
  type SignedByte = x: int | -128 <= x <= 127

  /** One row of `emote_ids`. `name` is the stored, space-padded name. */
  datatype EmoteRow = EmoteRow(
    emoteId: int,
    emoteHash: Option<string>,
    usable: bool,
    animated: bool,
    emoteSha: Option<string>,
    guildId: Option<int>,
    name: string,
    hasRoles: bool,
    manualBlock: bool,
    score: SignedByte)

  /** The eight-column record the emote queries select (`SQLEmoji`), with the name
      read through `trim(name)`. */
  datatype SqlEmoji = SqlEmoji(
    emoteId: int,
    emoteHash: Option<string>,
    usable: bool,
    animated: bool,
    emoteSha: Option<string>,
    guildId: Option<int>,
    name: string,
    hasRoles: bool)

  type Store = seq<EmoteRow>

  /** The row as a query returns it. */
  function Read(row: EmoteRow): SqlEmoji
  {
    SqlEmoji(row.emoteId, row.emoteHash, row.usable, row.animated, row.emoteSha,
             row.guildId, Trim(row.name), row.hasRoles)
  }

  /** The caller-supplied part of a name lookup: the scope clause (one guild, a
      pack's guild, the guilds a user shares with the bot, ...) and SQL `lower()`. */
  datatype Ctx = Ctx(inScope: EmoteRow -> bool, fold: string -> string)

  /** `has_roles=false and manual_block=false`, appended to every name lookup. */
  predicate Eligible(row: EmoteRow)
  {
    !row.hasRoles && !row.manualBlock
  }

  /** The WHERE clauses of the single-row lookups. */
  datatype Query =
    | ById(id: int)                                  // emote_id=%(emote_id)s
    | Like(hash: Option<string>, requireGuild: bool) // emote_hash=%(emote_hash)s [and guild_id is not null] and usable=true
    | Folded(ctx: Ctx, name: string)                 // <scope> and lower(trim(name))=lower(%(emote_name)s) and <eligible>
    | Exact(ctx: Ctx, name: string)                  // <scope> and trim(name)=%(emote_name)s and <eligible>
    | FoldedUsable(ctx: Ctx, name: string)           // <scope> and lower(trim(name))=lower(%(emote_name)s) and usable=true and <eligible>
    | ExactUsable(ctx: Ctx, name: string)            // <scope> and trim(name)=%(emote_name)s and usable=true and <eligible>

  predicate Matches(q: Query, row: EmoteRow)
  {
    match q
    case ById(id) => row.emoteId == id
    case Like(hash, requireGuild) =>
      SqlEq(row.emoteHash, hash) && row.usable && (requireGuild ==> row.guildId.Some?)
    case Folded(ctx, name) =>
      ctx.inScope(row) && ctx.fold(Trim(row.name)) == ctx.fold(name) && Eligible(row)
    case Exact(ctx, name) =>
      ctx.inScope(row) && Trim(row.name) == name && Eligible(row)
    case FoldedUsable(ctx, name) =>
      ctx.inScope(row) && ctx.fold(Trim(row.name)) == ctx.fold(name) && row.usable && Eligible(row)
    case ExactUsable(ctx, name) =>
      ctx.inScope(row) && Trim(row.name) == name && row.usable && Eligible(row)
  }

  /** Row `i` is the first row meeting `q`. */
  predicate FirstAt(store: Store, q: Query, i: int)
  {
    0 <= i < |store| && Matches(q, store[i]) && forall j :: 0 <= j < i ==> !Matches(q, store[j])
  }

  /** Position of the first row meeting `q`, if any. */
  function FirstIndex(store: Store, q: Query): (r: Option<nat>)
    ensures r.Some? ==> FirstAt(store, q, r.value)
    ensures r.None? ==> forall j :: 0 <= j < |store| ==> !Matches(q, store[j])
  {
    if |store| == 0 then None
    else if Matches(q, store[0]) then Some(0)
    else
      var tail := store[1..];
      assert forall j :: 0 < j < |store| ==> store[j] == tail[j - 1];
      match FirstIndex(tail, q)
      case None => None
      case Some(i) => Some(i + 1)
  }

  /** `SELECT ... WHERE <q> LIMIT 1`. */
  function Select(store: Store, q: Query): (r: Option<SqlEmoji>)
    ensures r.None? <==> forall j :: 0 <= j < |store| ==> !Matches(q, store[j])
    ensures r.Some? ==> exists i :: FirstAt(store, q, i) && r.value == Read(store[i])
  {
    match FirstIndex(store, q)
    case None => None
    case Some(i) => Some(Read(store[i]))
  }

  /** The first row meeting `q` is the only row that can do so ahead of all others. */
  lemma FirstAtUnique(store: Store, q: Query, i: int, j: int)
    requires FirstAt(store, q, i) && FirstAt(store, q, j)
    ensures i == j
  {
  }

  /** `_get_emote_like`: a usable row with the same (non-null) content hash, owned
      by some guild when `requireGuild`. The search ignores scope, `has_roles` and
      `manual_block`. One query. */
  function EmoteLike(store: Store, emote: SqlEmoji, requireGuild: bool): (r: Option<SqlEmoji>)
    ensures r.Some? ==> emote.emoteHash.Some? && r.value.emoteHash == emote.emoteHash
    ensures r.Some? ==> r.value.usable && (requireGuild ==> r.value.guildId.Some?)
    ensures r.Some? ==> exists i :: 0 <= i < |store| && r.value == Read(store[i])
    ensures r.None? <==> forall j :: 0 <= j < |store| ==>
      !(SqlEq(store[j].emoteHash, emote.emoteHash) && store[j].usable && (requireGuild ==> store[j].guildId.Some?))
  {
    Select(store, Like(emote.emoteHash, requireGuild))
  }

  /** The answer of a lookup together with the number of queries it issued. */
  datatype Lookup = Lookup(found: Option<SqlEmoji>, queries: nat)

  /** `get_emote_like`: the emote with this id if it can be used directly, else a
      usable copy of it found by content hash. */
  function GetEmoteLike(store: Store, emoteId: int, requireGuild: bool): (r: Lookup)
    // no row with the id: nothing, after exactly one lookup (and only then)
    ensures (forall j :: 0 <= j < |store| ==> store[j].emoteId != emoteId) <==> r == Lookup(None, 1)
    // the row itself, when usable and guild-owned (guild tested by truthiness), or
    // a usable orphan when no guild is required
    ensures forall i :: (FirstAt(store, ById(emoteId), i) && store[i].usable && (Truthy(store[i].guildId) || !requireGuild)
      ==> r == Lookup(Some(Read(store[i])), 1))
    // otherwise the same-hash search on that row
    ensures forall i :: (FirstAt(store, ById(emoteId), i) && !(store[i].usable && (Truthy(store[i].guildId) || !requireGuild))
      ==> r == Lookup(EmoteLike(store, Read(store[i]), requireGuild), 2))
    // whatever comes back is usable and shares the requested row's hash
    ensures r.found.Some? ==> r.found.value.usable
    ensures r.found.Some? ==> exists i :: FirstAt(store, ById(emoteId), i) && r.found.value.emoteHash == store[i].emoteHash
    ensures r.found.Some? && requireGuild ==> r.found.value.guildId.Some?
  {
    match Select(store, ById(emoteId))
    case None => Lookup(None, 1)
    case Some(emote) =>
      if emote.usable then
        if Truthy(emote.guildId) then Lookup(Some(emote), 1)
        else if requireGuild then Lookup(EmoteLike(store, emote, requireGuild), 2)
        else Lookup(Some(emote), 1)
      else Lookup(EmoteLike(store, emote, requireGuild), 2)
  }

  /** When the row exists but nothing comes back, no row anywhere shares its
      (non-null) hash while being usable and, if a guild is required, guild-owned. */
  lemma GetEmoteLikeNoneMeansNoUsableCopy(store: Store, emoteId: int, requireGuild: bool, i: int)
    requires FirstAt(store, ById(emoteId), i)
    requires GetEmoteLike(store, emoteId, requireGuild).found.None?
    ensures store[i].emoteHash.Some? ==>
      forall j :: 0 <= j < |store| && store[j].emoteHash == store[i].emoteHash ==>
        !store[j].usable || (requireGuild && store[j].guildId.None?)
  {
  }

  // ---------------------------------------------------------------------------
  // Table maintenance

  /** `emote_id` is the table's primary key. */
  predicate UniqueIds(store: Store)
  {
    forall i, j :: 0 <= i < j < |store| ==> store[i].emoteId != store[j].emoteId
  }

  /** Selected and deleted by `purge_emojis`: one of the ids, with no guild. */
  predicate Purgeable(row: EmoteRow, ids: seq<int>)
  {
    row.emoteId in ids && row.guildId.None?
  }

  /** The rows `purge_emojis` keeps, in table order. */
  function KeepUnpurged(store: Store, ids: seq<int>): (r: Store)
    ensures forall row :: row in r <==> row in store && !Purgeable(row, ids)
    ensures |r| <= |store|
  {
    if |store| == 0 then []
    else if Purgeable(store[0], ids) then KeepUnpurged(store[1..], ids)
    else [store[0]] + KeepUnpurged(store[1..], ids)
  }

  /** `purge_emojis`: delete the orphaned rows among the ids and return their ids
      (the delete is skipped when the select found nothing, which changes nothing). */
  function Purge(store: Store, ids: seq<int>): (r: (Store, set<int>))
    ensures forall row :: row in r.0 <==> row in store && !Purgeable(row, ids)
    ensures forall id :: id in r.1 <==> id in ids && exists row :: row in store && row.emoteId == id && row.guildId.None?
  {
    var purged := set row | row in store && Purgeable(row, ids) :: row.emoteId;
    (KeepUnpurged(store, ids), purged)
  }

  /** Purging the same ids again finds nothing more to delete. */
  lemma PurgeIdempotent(store: Store, ids: seq<int>)
    ensures Purge(Purge(store, ids).0, ids).1 == {}
    ensures forall row :: row in Purge(Purge(store, ids).0, ids).0 <==> row in Purge(store, ids).0
  {
    var once := Purge(store, ids).0;
    assert forall row :: row in once ==> !Purgeable(row, ids);
  }

  /** The row `set_emote_perceptual_data` inserts for a new id; `manual_block` and
      `score` take their column defaults. */
  function NewRow(emoteId: int, guildId: int, emoteHash: string, emoteSha: string,
                  animated: bool, usable: bool, name: string, hasRoles: bool): EmoteRow
  {
    EmoteRow(emoteId, Some(emoteHash), usable, animated, Some(emoteSha), Some(guildId), name, hasRoles, false, 0)
  }

  /** `set_emote_perceptual_data`: insert the emote, or, for a known id, refresh only
      its name and `has_roles` and give it the guild if it has none. */
  function SetPerceptualData(store: Store, emoteId: int, guildId: int, emoteHash: string, emoteSha: string,
                             animated: bool, usable: bool, name: string, hasRoles: bool): (r: Store)
    // a new id is appended as a fresh row
    ensures (forall j :: 0 <= j < |store| ==> store[j].emoteId != emoteId) ==>
      r == store + [NewRow(emoteId, guildId, emoteHash, emoteSha, animated, usable, name, hasRoles)]
    // a known id keeps its hash, sha, usability, animation, block flag, score and any guild it had
    ensures forall i :: (FirstAt(store, ById(emoteId), i) ==>
      && |r| == |store|
      && r[i] == store[i].(name := name, hasRoles := hasRoles, guildId := r[i].guildId)
      && (store[i].guildId.Some? ==> r[i].guildId == store[i].guildId)
      && (store[i].guildId.None? ==> r[i].guildId == Some(guildId)))
    // no other row changes
    ensures forall j :: 0 <= j < |store| && store[j].emoteId != emoteId ==> j < |r| && r[j] == store[j]
    ensures UniqueIds(store) ==> UniqueIds(r)
  {
    match FirstIndex(store, ById(emoteId))
    case None => store + [NewRow(emoteId, guildId, emoteHash, emoteSha, animated, usable, name, hasRoles)]
    case Some(i) =>
      var prior := store[i];
      store[i := prior.(name := name, hasRoles := hasRoles, guildId := Coalesce(prior.guildId, Some(guildId)))]
  }

  /** Recording the same perceptual data twice is the same as recording it once. */
  lemma SetPerceptualDataIdempotent(store: Store, emoteId: int, guildId: int, emoteHash: string, emoteSha: string,
                                    animated: bool, usable: bool, name: string, hasRoles: bool)
    requires UniqueIds(store)
    ensures var once := SetPerceptualData(store, emoteId, guildId, emoteHash, emoteSha, animated, usable, name, hasRoles);
      SetPerceptualData(once, emoteId, guildId, emoteHash, emoteSha, animated, usable, name, hasRoles) == once
  {
    var once := SetPerceptualData(store, emoteId, guildId, emoteHash, emoteSha, animated, usable, name, hasRoles);
    match FirstIndex(store, ById(emoteId))
    case None =>
      assert FirstAt(once, ById(emoteId), |store|);
    case Some(i) =>
      assert FirstAt(once, ById(emoteId), i);
  }

  /** `clear_guild_emotes`: orphan every emote of the guild; the rows stay. */
  function ClearGuildEmotes(store: Store, guildId: int): (r: Store)
    ensures |r| == |store|
    ensures forall i :: 0 <= i < |r| ==> r[i].guildId != Some(guildId)
    ensures forall i :: 0 <= i < |r| ==> r[i] == store[i].(guildId := r[i].guildId)
    ensures forall i :: 0 <= i < |r| && store[i].guildId != Some(guildId) ==> r[i] == store[i]
  {
    seq(|store|, i requires 0 <= i < |store| =>
      if store[i].guildId == Some(guildId) then store[i].(guildId := None) else store[i])
  }
}

=== FILE: guild_messages.dfy ===
/** `sql_helper/mixins/guild_messages.py`: the log of messages posted in guilds,
    keyed by message id, with the filter dispatch shared by the reads. */
module GuildMessages {
  import opened Common

  /** One row of `guild_messages` (the `GuildMessage` tuple). */
  datatype GuildMessage = GuildMessage(messageId: int, guildId: int, userId: int, channelId: int, content: string)

  type MessageTable = seq<GuildMessage>

  /** The WHERE clause `_get_guild_message` picks. */
  datatype MessageFilter =
    | ByMessage(messageId: int)
    | ByChannelUser(channelId: int, userId: int)
    | ByChannel(channelId: int)
    | ByGuildUser(guildId: int, userId: int)
    | ByGuild(guildId: int)

  /** The `NotImplementedError` raised for a combination no branch accepts. */
  datatype NotImplemented = NotImplemented

  /** `_get_guild_message`'s branch choice: a message id that is not `None` first,
      then channel and user, channel, guild and user, guild, each tested by
      truthiness, so a `0` id counts as absent. */
  function Dispatch(messageId: Option<int>, guildId: Option<int>, channelId: Option<int>, userId: Option<int>): (r: Result<MessageFilter, NotImplemented>)
    ensures messageId.Some? ==> r == Success(ByMessage(messageId.value))
    ensures r.Failure? <==> messageId.None? && !Truthy(channelId) && !Truthy(guildId)
    ensures messageId.None? && Truthy(channelId) ==>
      r.Success? && (r.value.ByChannelUser? || r.value.ByChannel?) && r.value.channelId == channelId.value
    ensures r.Success? && r.value.ByChannelUser? <==> messageId.None? && Truthy(channelId) && Truthy(userId)
    ensures r.Success? && r.value.ByGuildUser? <==> messageId.None? && !Truthy(channelId) && Truthy(guildId) && Truthy(userId)
    ensures r.Success? && r.value.ByGuild? <==> messageId.None? && !Truthy(channelId) && Truthy(guildId) && !Truthy(userId)
    ensures r.Success? && (r.value.ByGuildUser? || r.value.ByGuild?) ==> r.value.guildId == guildId.value
    ensures r.Success? && (r.value.ByChannelUser? || r.value.ByGuildUser?) ==> r.value.userId == userId.value
  {
    if messageId.Some? then Success(ByMessage(messageId.value))
    else if Truthy(channelId) && Truthy(userId) then Success(ByChannelUser(channelId.value, userId.value))
    else if Truthy(channelId) then Success(ByChannel(channelId.value))
    else if Truthy(guildId) && Truthy(userId) then Success(ByGuildUser(guildId.value, userId.value))
    else if Truthy(guildId) then Success(ByGuild(guildId.value))
    else Failure(NotImplemented)
  }

  /** A user id alone, or nothing at all, selects no branch. */
  lemma UserAloneIsNotImplemented(userId: Option<int>)
    ensures Dispatch(None, None, None, userId).Failure?
  {
  }

  /** The rows a filter's WHERE clause keeps. */
  predicate Keeps(f: MessageFilter, m: GuildMessage)
  {
    match f
    case ByMessage(id) => m.messageId == id
    case ByChannelUser(c, u) => m.channelId == c && m.userId == u
    case ByChannel(c) => m.channelId == c
    case ByGuildUser(g, u) => m.guildId == g && m.userId == u
    case ByGuild(g) => m.guildId == g
  }

  /** `count(*)` under a filter. */
  function CountKept(table: MessageTable, f: MessageFilter): (n: nat)
    ensures n <= |table|
    ensures n == 0 <==> forall m :: m in table ==> !Keeps(f, m)
    ensures n == |table| <==> forall m :: m in table ==> Keeps(f, m)
  {
    if |table| == 0 then 0
    else
      var rest := CountKept(table[1..], f);
      assert table == [table[0]] + table[1..];
      (if Keeps(f, table[0]) then 1 else 0) + rest
  }

  /** `get_guild_message_count`: the number of rows the dispatched filter keeps, or
      the dispatch error. */
  function GetGuildMessageCount(table: MessageTable, messageId: Option<int>, guildId: Option<int>, channelId: Option<int>, userId: Option<int>): (r: Result<nat, NotImplemented>)
    ensures r.Failure? <==> Dispatch(messageId, guildId, channelId, userId).Failure?
    ensures r.Success? ==> r.value == CountKept(table, Dispatch(messageId, guildId, channelId, userId).value)
  {
    match Dispatch(messageId, guildId, channelId, userId)
    case Failure(e) => Failure(e)
    case Success(f) => Success(CountKept(table, f))
  }

  /** Message ids are unique: `guild_messages_pk`. */
  predicate UniqueIds(table: MessageTable)
  {
    forall i, j :: 0 <= i < j < |table| ==> table[i].messageId != table[j].messageId
  }

  /** Counting by message id finds at most one row. */
  lemma {:induction false} CountByMessageAtMostOne(table: MessageTable, messageId: int)
    requires UniqueIds(table)
    ensures GetGuildMessageCount(table, Some(messageId), None, None, None) == Success(CountKept(table, ByMessage(messageId)))
    ensures CountKept(table, ByMessage(messageId)) <= 1
  {
    if |table| > 0 {
      assert UniqueIds(table[1..]);
      CountByMessageAtMostOne(table[1..], messageId);
      if table[0].messageId == messageId {
        assert forall m :: m in table[1..] ==> !Keeps(ByMessage(messageId), m);
      }
    }
  }

  /** psycopg refuses a string holding NUL with a `ValueError`. */
  predicate HasNul(s: string)
  {
    '\0' in s
  }

  /** The content stored under a message id, if any. */
  function StoredContent(table: MessageTable, messageId: int): (c: Option<string>)
    ensures c.Some? <==> exists m :: m in table && m.messageId == messageId
    ensures c.Some? ==> exists m :: m in table && m.messageId == messageId && m.content == c.value
  {
    if |table| == 0 then None
    else if table[0].messageId == messageId then Some(table[0].content)
    else StoredContent(table[1..], messageId)
  }

  /** The content read is that of the first row with the id (the only one, under
      the key). */
  lemma {:induction false} StoredContentIsFirst(table: MessageTable, messageId: int, i: int)
    requires 0 <= i < |table| && table[i].messageId == messageId
    requires forall j :: 0 <= j < i ==> table[j].messageId != messageId
    ensures StoredContent(table, messageId) == Some(table[i].content)
  {
    if i > 0 {
      assert table[0].messageId != messageId;
      StoredContentIsFirst(table[1..], messageId, i - 1);
    }
  }

  /** The upsert of `add_guild_message`: a new id is appended; for a known id only
      the content is replaced. */
  function Upsert(table: MessageTable, msg: GuildMessage): (r: MessageTable)
    ensures StoredContent(r, msg.messageId) == Some(msg.content)
    ensures forall id :: id != msg.messageId ==> StoredContent(r, id) == StoredContent(table, id)
    ensures forall m :: m in r ==> m in table || m.messageId == msg.messageId
  {
    if |table| == 0 then [msg]
    else if table[0].messageId == msg.messageId then
      var r := [table[0].(content := msg.content)] + table[1..];
      assert r[1..] == table[1..];
      r
    else
      var rest := Upsert(table[1..], msg);
      var r := [table[0]] + rest;
      assert r[1..] == rest;
      assert forall m :: m in table[1..] ==> m in table;
      r
  }

  /** The upsert keeps message ids unique. */
  lemma {:induction false} UpsertKeepsIdsUnique(table: MessageTable, msg: GuildMessage)
    ensures UniqueIds(table) ==> UniqueIds(Upsert(table, msg))
  {
    if !UniqueIds(table) {
    } else if |table| > 0 && table[0].messageId != msg.messageId {
      assert UniqueIds(table[1..]);
      UpsertKeepsIdsUnique(table[1..], msg);
      var rest := Upsert(table[1..], msg);
      assert forall m :: m in table[1..] ==> m.messageId != table[0].messageId;
      assert forall i :: 0 <= i < |rest| ==> rest[i] in rest;
    } else if |table| > 0 {
      var r := Upsert(table, msg);
      assert forall i :: 0 < i < |r| ==> r[i] == table[i];
    }
  }

  /** A new id is appended after every existing row. */
  lemma {:induction false} UpsertAppendsNewId(table: MessageTable, msg: GuildMessage)
    requires forall m :: m in table ==> m.messageId != msg.messageId
    ensures Upsert(table, msg) == table + [msg]
  {
    if |table| > 0 {
      var t := table[1..];
      assert table[0] in table;
      assert forall m :: m in t ==> m in table;
      UpsertAppendsNewId(t, msg);
      assert Upsert(table, msg) == [table[0]] + Upsert(t, msg);
      ConsAppend(table, msg);
    }
  }

  lemma ConsAppend<T>(s: seq<T>, x: T)
    requires |s| > 0
    ensures s + [x] == [s[0]] + (s[1..] + [x])
  {
    assert s == [s[0]] + s[1..];
  }

  /** Every existing row stays in place, and only the content of a row with the
      message's id can change. */
  lemma {:induction false} UpsertChangesOnlyContent(table: MessageTable, msg: GuildMessage)
    ensures var r := Upsert(table, msg);
      |table| <= |r| && forall i :: 0 <= i < |table| ==>
        r[i].(content := table[i].content) == table[i] && (table[i].messageId != msg.messageId ==> r[i] == table[i])
  {
    if |table| > 0 && table[0].messageId != msg.messageId {
      UpsertChangesOnlyContent(table[1..], msg);
      var r := Upsert(table, msg);
      assert forall i :: 0 < i < |table| ==> r[i] == Upsert(table[1..], msg)[i - 1] && table[i] == table[1..][i - 1];
    }
  }

  /** `add_guild_message`: content with a NUL changes nothing (the error is
      swallowed); anything else is upserted. */
  function AddGuildMessage(table: MessageTable, msg: GuildMessage): (r: MessageTable)
    ensures HasNul(msg.content) ==> r == table
    ensures !HasNul(msg.content) ==> StoredContent(r, msg.messageId) == Some(msg.content)
    ensures forall id :: id != msg.messageId ==> StoredContent(r, id) == StoredContent(table, id)
    ensures UniqueIds(table) ==> UniqueIds(r)
  {
    if HasNul(msg.content) then table
    else
      UpsertKeepsIdsUnique(table, msg);
      Upsert(table, msg)
  }

  /** `add_guild_message` once per message, in order: the fallback path. */
  function AddEach(table: MessageTable, msgs: seq<GuildMessage>): (r: MessageTable)
    ensures UniqueIds(table) ==> UniqueIds(r)
    ensures forall id :: (forall m :: m in msgs ==> m.messageId != id) ==> StoredContent(r, id) == StoredContent(table, id)
    decreases |msgs|
  {
    if |msgs| == 0 then table
    else
      var init := msgs[..|msgs| - 1];
      assert forall m :: m in init ==> m in msgs;
      AddGuildMessage(AddEach(table, init), msgs[|msgs| - 1])
  }

  /** Some message of the batch has content with a NUL. */
  predicate AnyNul(msgs: seq<GuildMessage>)
  {
    exists m :: m in msgs && HasNul(m.content)
  }

  /** Two messages of the batch share an id. */
  predicate IdsRepeat(msgs: seq<GuildMessage>)
  {
    exists i, j :: 0 <= i < j < |msgs| && msgs[i].messageId == msgs[j].messageId
  }

  /** `add_guild_message_bulk`: one bulk upsert; a NUL anywhere makes it fall back
      to one insert per message; without a NUL, a repeated id makes the statement
      fail, which is not caught. */
  function AddGuildMessageBulk(table: MessageTable, msgs: seq<GuildMessage>): (r: Result<MessageTable, DbError>)
    ensures r.Failure? <==> !AnyNul(msgs) && IdsRepeat(msgs)
    ensures r.Success? ==> r.value == AddEach(table, msgs)
  {
    if AnyNul(msgs) then Success(AddEach(table, msgs))
    else if IdsRepeat(msgs) then Failure(CardinalityViolation)
    else Success(AddEach(table, msgs))
  }

  /** The last message of the batch for an id whose content has no NUL: the one
      whose content the id ends up with. */
  predicate LastStorable(msgs: seq<GuildMessage>, i: int)
  {
    0 <= i < |msgs| && !HasNul(msgs[i].content)
    && forall j :: i < j < |msgs| && msgs[j].messageId == msgs[i].messageId ==> HasNul(msgs[j].content)
  }

  /** Every message the one-by-one path can store is stored: its id holds the
      content of its last storable occurrence. */
  lemma {:induction false} AddEachStoresEach(table: MessageTable, msgs: seq<GuildMessage>, i: int)
    requires LastStorable(msgs, i)
    ensures StoredContent(AddEach(table, msgs), msgs[i].messageId) == Some(msgs[i].content)
    decreases |msgs|
  {
    var init := msgs[..|msgs| - 1];
    var last := msgs[|msgs| - 1];
    if i < |msgs| - 1 {
      assert LastStorable(init, i);
      AddEachStoresEach(table, init, i);
      if last.messageId == msgs[i].messageId {
        assert HasNul(last.content);
      }
    }
  }

  /** Whenever the bulk insert succeeds, every message whose content has no NUL
      is stored, the last one of each id winning. */
  lemma BulkStoresEveryStorableMessage(table: MessageTable, msgs: seq<GuildMessage>, i: int)
    requires LastStorable(msgs, i)
    requires AddGuildMessageBulk(table, msgs).Success?
    ensures StoredContent(AddGuildMessageBulk(table, msgs).value, msgs[i].messageId) == Some(msgs[i].content)
  {
    AddEachStoresEach(table, msgs, i);
  }

  /** Without a NUL and with distinct ids, each message is stored with its own
      content. */
  lemma BulkWithoutNulStoresAll(table: MessageTable, msgs: seq<GuildMessage>, i: int)
    requires !AnyNul(msgs) && !IdsRepeat(msgs) && 0 <= i < |msgs|
    ensures AddGuildMessageBulk(table, msgs).Success?
    ensures StoredContent(AddGuildMessageBulk(table, msgs).value, msgs[i].messageId) == Some(msgs[i].content)
  {
    assert msgs[i] in msgs;
    assert forall j :: i < j < |msgs| ==> msgs[j].messageId != msgs[i].messageId;
    AddEachStoresEach(table, msgs, i);
  }
}

=== FILE: guild_settings.dfy ===
/** `sql_helper/guild_settings.py`: a guild's settings record, whose feature flags
    default to on when the column is `NULL`. */
module GuildSettingsRecord {
  import opened Common

  /** `_parse_boolean`: a stored flag, or `onNone` when there is none. */
  function ParseBoolean(b: Option<bool>, onNone: Option<bool>): (r: Option<bool>)
    ensures b.Some? ==> r == b
    ensures b.None? ==> r == onNone
  {
    if b.None? then onNone else b
  }

  /** Parsing an already parsed flag changes nothing, and with a default the
      result is never `None`. */
  lemma ParseBooleanSettles(b: Option<bool>, onNone: Option<bool>)
    ensures ParseBoolean(ParseBoolean(b, onNone), onNone) == ParseBoolean(b, onNone)
    ensures onNone.Some? ==> ParseBoolean(b, onNone).Some?
  {
  }

  /** The flag value with the default `on_none=True`. */
  function Flag(b: Option<bool>): (on: bool)
    ensures on <==> b != Some(false)
  {
    ParseBoolean(b, Some(true)).value
  }

  datatype GuildSettings = GuildSettings(
    guildId: int,
    prefix: Option<string>,
    announcementChannel: Option<int>,
    boostChannel: Option<int>,
    boostRole: Option<int>,
    auditChannel: Option<int>,
    enableStickers: bool,
    enableNitro: bool,
    enableReplies: bool,
    enableMaskedLinks: bool,
    isAliasServer: bool)

  /** `GuildSettings.__init__`: the six plain fields are kept as given and each of
      the five flags is on unless it was stored as `false`. */
  function NewGuildSettings(
    guildId: int,
    prefix: Option<string>,
    announcementChannel: Option<int>,
    boostChannel: Option<int>,
    boostRole: Option<int>,
    auditChannel: Option<int>,
    enableStickers: Option<bool>,
    enableNitro: Option<bool>,
    enableReplies: Option<bool>,
    enableMaskedLinks: Option<bool>,
    isAliasServer: Option<bool>): (s: GuildSettings)
    ensures s.guildId == guildId && s.prefix == prefix && s.announcementChannel == announcementChannel
      && s.boostChannel == boostChannel && s.boostRole == boostRole && s.auditChannel == auditChannel
    ensures s.enableStickers <==> enableStickers != Some(false)
    ensures s.enableNitro <==> enableNitro != Some(false)
    ensures s.enableReplies <==> enableReplies != Some(false)
    ensures s.enableMaskedLinks <==> enableMaskedLinks != Some(false)
    ensures s.isAliasServer <==> isAliasServer != Some(false)
  {
    GuildSettings(guildId, prefix, announcementChannel, boostChannel, boostRole, auditChannel,
      Flag(enableStickers), Flag(enableNitro), Flag(enableReplies), Flag(enableMaskedLinks), Flag(isAliasServer))
  }

  /** Building settings from the flags of existing settings gives them back: a
      stored `true` or `false` survives parsing. */
  lemma NewGuildSettingsRoundTrip(s: GuildSettings)
    ensures NewGuildSettings(s.guildId, s.prefix, s.announcementChannel, s.boostChannel, s.boostRole, s.auditChannel,
      Some(s.enableStickers), Some(s.enableNitro), Some(s.enableReplies), Some(s.enableMaskedLinks), Some(s.isAliasServer)) == s
  {
  }

  /** A row with every flag `NULL` gets every flag on. */
  lemma NullFlagsAreOn(guildId: int)
    ensures var s := NewGuildSettings(guildId, None, None, None, None, None, None, None, None, None, None);
      s.enableStickers && s.enableNitro && s.enableReplies && s.enableMaskedLinks && s.isAliasServer
  {
  }
}

=== FILE: premium.dfy ===
/** `sql_helper/mixins/premium.py`: premium features granted to guilds, and the
    Patreon supporters table. */
module Premium {
  import opened Common

  /** A `guild_features_enum` value. The enum's definition (`guild_feature.py`) is
      not part of this model; only the two members the code tests are named. */
  datatype Feature = UserContent | EmoteRoles | OtherFeature(value: string)

  /** `guild_features`: the set of `(guild_id, feature)` pairs. */
  type FeatureTable = set<(int, Feature)>

  /** The two `guild_settings` columns that losing a feature resets. */
  datatype SettingsRow = SettingsRow(enableUserContent: Option<bool>, nitroRole: Option<int>)

  type SettingsTable = map<int, SettingsRow>

  /** Every pair of a listed guild and a listed feature (the `CROSS JOIN`). */
  function CrossProduct(guildIds: seq<int>, features: seq<Feature>): (pairs: set<(int, Feature)>)
    ensures forall g, f :: (g, f) in pairs <==> g in guildIds && f in features
  {
    set g, f | g in guildIds && f in features :: (g, f)
  }

  /** `add_guild_feature`: insert the cross product, skipping pairs already
      present; nothing when either list is empty. */
  function AddGuildFeature(table: FeatureTable, guildIds: seq<int>, features: seq<Feature>): (r: FeatureTable)
    ensures |guildIds| == 0 || |features| == 0 ==> r == table
    ensures forall g, f :: (g, f) in r <==> (g, f) in table || (g in guildIds && f in features)
  {
    if |guildIds| > 0 && |features| > 0 then table + CrossProduct(guildIds, features) else table
  }

  /** Adding the same features twice is the same as adding them once. */
  lemma AddGuildFeatureIdempotent(table: FeatureTable, guildIds: seq<int>, features: seq<Feature>)
    ensures var once := AddGuildFeature(table, guildIds, features);
      AddGuildFeature(once, guildIds, features) == once
  {
  }

  /** `remove_guild_feature`: delete the cross product; then, for the listed guilds
      that have settings, losing `USER_CONTENT` switches user content back on and
      losing `EMOTE_ROLES` clears the nitro role. Nothing when either list is empty. */
  function RemoveGuildFeature(table: FeatureTable, settings: SettingsTable, guildIds: seq<int>, features: seq<Feature>): (r: (FeatureTable, SettingsTable))
    ensures |guildIds| == 0 || |features| == 0 ==> r == (table, settings)
    ensures forall g, f :: (g, f) in r.0 <==> (g, f) in table && !(g in guildIds && f in features)
    ensures r.1.Keys == settings.Keys
    ensures forall g :: g in settings && g !in guildIds ==> r.1[g] == settings[g]
    ensures forall g :: g in settings && g in guildIds ==>
      r.1[g].enableUserContent == (if UserContent in features then Some(true) else settings[g].enableUserContent)
      && r.1[g].nitroRole == (if EmoteRoles in features then None else settings[g].nitroRole)
  {
    if |guildIds| > 0 && |features| > 0 then
      var kept := table - CrossProduct(guildIds, features);
      var withContent := if UserContent in features then EnableUserContent(settings, guildIds) else settings;
      var withRoles := if EmoteRoles in features then ClearNitroRole(withContent, guildIds) else withContent;
      (kept, withRoles)
    else (table, settings)
  }

  /** `UPDATE guild_settings SET enable_user_content=true WHERE guild_id=ANY(...)`. */
  function EnableUserContent(settings: SettingsTable, guildIds: seq<int>): (r: SettingsTable)
    ensures r.Keys == settings.Keys
    ensures forall g :: g in settings ==>
      r[g] == if g in guildIds then settings[g].(enableUserContent := Some(true)) else settings[g]
  {
    map g | g in settings :: if g in guildIds then settings[g].(enableUserContent := Some(true)) else settings[g]
  }

  /** `UPDATE guild_settings SET nitro_role=null WHERE guild_id=ANY(...)`. */
  function ClearNitroRole(settings: SettingsTable, guildIds: seq<int>): (r: SettingsTable)
    ensures r.Keys == settings.Keys
    ensures forall g :: g in settings ==>
      r[g] == if g in guildIds then settings[g].(nitroRole := None) else settings[g]
  {
    map g | g in settings :: if g in guildIds then settings[g].(nitroRole := None) else settings[g]
  }

  /** Removing features undoes adding them, for pairs that were not there before. */
  lemma RemoveUndoesAdd(table: FeatureTable, settings: SettingsTable, guildIds: seq<int>, features: seq<Feature>)
    requires forall g, f :: g in guildIds && f in features ==> (g, f) !in table
    ensures RemoveGuildFeature(AddGuildFeature(table, guildIds, features), settings, guildIds, features).0 == table
  {
  }

  /** `PremiumLastChargeStatus`. */
  datatype ChargeStatus = Paid | Declined | Deleted | Pending | Refunded | Fraud | Other

  /** The supporter record a caller passes in. `update_premium_users` also reads a
      `pledge_id` from it. */
  datatype PremiumUser = PremiumUser(
    patreonId: string,
    discordId: Option<int>,
    lifetimeSupportCents: int,
    lastChargeDate: Option<string>,
    lastChargeStatus: Option<ChargeStatus>,
    tokens: int,
    tokensSpent: int,
    pledgeId: Option<string>)

  /** One row of `premium_users`, keyed by `patreon_id`. */
  datatype PremiumRow = PremiumRow(
    discordId: Option<int>,
    lifetimeSupportCents: int,
    lastChargeDate: Option<string>,
    lastChargeStatus: Option<ChargeStatus>,
    tokens: int,
    tokensSpent: int,
    pledgeId: Option<string>)

  type PremiumTable = map<string, PremiumRow>

  /** `set_premium_user`: every listed column is written, tokens included; the
      pledge is not listed, so an existing row keeps it and a new row has none. */
  function SetPremiumUser(table: PremiumTable, u: PremiumUser): (r: PremiumTable)
    ensures r.Keys == table.Keys + {u.patreonId}
    ensures forall p :: p in table && p != u.patreonId ==> r[p] == table[p]
    ensures var row := r[u.patreonId];
      row.discordId == u.discordId && row.lifetimeSupportCents == u.lifetimeSupportCents
      && row.lastChargeDate == u.lastChargeDate && row.lastChargeStatus == u.lastChargeStatus
      && row.tokens == u.tokens && row.tokensSpent == u.tokensSpent
      && row.pledgeId == (if u.patreonId in table then table[u.patreonId].pledgeId else None)
  {
    var pledge := if u.patreonId in table then table[u.patreonId].pledgeId else None;
    table[u.patreonId := PremiumRow(u.discordId, u.lifetimeSupportCents, u.lastChargeDate, u.lastChargeStatus, u.tokens, u.tokensSpent, pledge)]
  }

  /** Writing the same supporter twice is writing it once. */
  lemma SetPremiumUserIdempotent(table: PremiumTable, u: PremiumUser)
    ensures var once := SetPremiumUser(table, u);
      SetPremiumUser(once, u) == once
  {
  }

  /** The tokens `set_premium_user` writes survive any later Patreon sync, which
      only ever carries tokens over. */
  lemma SetThenUpdateKeepsTokens(table: PremiumTable, u: PremiumUser, users: seq<PremiumUser>)
    ensures var r := UpdatePremiumUsers(SetPremiumUser(table, u), users);
      r.Success? ==> (u.patreonId in r.value
        && r.value[u.patreonId].tokens == u.tokens && r.value[u.patreonId].tokensSpent == u.tokensSpent)
  {
  }

  /** One row of `update_premium_users`: a new supporter starts with no tokens; an
      existing one keeps its tokens and has everything else overwritten. */
  function UpdateOne(table: PremiumTable, u: PremiumUser): (r: PremiumTable)
    ensures r.Keys == table.Keys + {u.patreonId}
    ensures forall p :: p in table && p != u.patreonId ==> r[p] == table[p]
  {
    var tokens := if u.patreonId in table then table[u.patreonId].tokens else 0;
    var spent := if u.patreonId in table then table[u.patreonId].tokensSpent else 0;
    table[u.patreonId := PremiumRow(u.discordId, u.lifetimeSupportCents, u.lastChargeDate, u.lastChargeStatus, tokens, spent, u.pledgeId)]
  }

  /** The patreon ids of a batch. */
  function PatreonIds(users: seq<PremiumUser>): set<string>
  {
    set u | u in users :: u.patreonId
  }

  function UpdateEach(table: PremiumTable, users: seq<PremiumUser>): (r: PremiumTable)
    ensures r.Keys == table.Keys + PatreonIds(users)
    ensures forall p :: p in table && p !in PatreonIds(users) ==> r[p] == table[p]
    ensures forall p :: p in r ==> r[p].tokens == (if p in table then table[p].tokens else 0)
    ensures forall p :: p in r ==> r[p].tokensSpent == (if p in table then table[p].tokensSpent else 0)
    decreases |users|
  {
    if |users| == 0 then table
    else
      var init := users[..|users| - 1];
      var last := users[|users| - 1];
      assert users == init + [last];
      PatreonIdsSnoc(init, last);
      UpdateOne(UpdateEach(table, init), last)
  }

  lemma PatreonIdsSnoc(init: seq<PremiumUser>, last: PremiumUser)
    ensures PatreonIds(init + [last]) == PatreonIds(init) + {last.patreonId}
  {
    assert forall u :: u in init + [last] <==> u in init || u == last;
  }

  /** Two users of one batch with the same patreon id. */
  predicate PatreonIdsRepeat(users: seq<PremiumUser>)
  {
    exists i, j :: 0 <= i < j < |users| && users[i].patreonId == users[j].patreonId
  }

  /** `update_premium_users`: an empty batch returns at once; a batch naming one
      patreon id twice makes the upsert fail; otherwise every user is upserted,
      never touching the tokens of an existing supporter. */
  function UpdatePremiumUsers(table: PremiumTable, users: seq<PremiumUser>): (r: Result<PremiumTable, DbError>)
    ensures |users| == 0 ==> r == Success(table)
    ensures r.Failure? <==> PatreonIdsRepeat(users)
    ensures r.Success? ==> r.value.Keys == table.Keys + PatreonIds(users)
    ensures r.Success? ==> forall p :: p in table && p !in PatreonIds(users) ==> r.value[p] == table[p]
    ensures r.Success? ==> forall p :: p in r.value ==>
      r.value[p].tokens == (if p in table then table[p].tokens else 0)
      && r.value[p].tokensSpent == (if p in table then table[p].tokensSpent else 0)
  {
    if |users| == 0 then Success(table)
    else if PatreonIdsRepeat(users) then Failure(CardinalityViolation)
    else Success(UpdateEach(table, users))
  }

  /** A successful sync writes every Patreon column of each batch user: the
      discord id, the support cents, the last charge and the pledge. */
  lemma UpdatePremiumUsersWritesEach(table: PremiumTable, users: seq<PremiumUser>, i: int)
    requires 0 <= i < |users|
    ensures var r := UpdatePremiumUsers(table, users);
      r.Success? ==> (users[i].patreonId in r.value
        && var row := r.value[users[i].patreonId];
        var u := users[i];
        row.discordId == u.discordId && row.lifetimeSupportCents == u.lifetimeSupportCents
        && row.lastChargeDate == u.lastChargeDate && row.lastChargeStatus == u.lastChargeStatus
        && row.pledgeId == u.pledgeId)
  {
    if !PatreonIdsRepeat(users) {
      UpdateEachWritesEach(table, users, i);
    }
  }

  /** With distinct patreon ids, each user's row carries exactly the columns the
      upsert writes. */
  lemma {:induction false} UpdateEachWritesEach(table: PremiumTable, users: seq<PremiumUser>, i: int)
    requires !PatreonIdsRepeat(users) && 0 <= i < |users|
    ensures var row := UpdateEach(table, users)[users[i].patreonId];
      var u := users[i];
      row.discordId == u.discordId && row.lifetimeSupportCents == u.lifetimeSupportCents
      && row.lastChargeDate == u.lastChargeDate && row.lastChargeStatus == u.lastChargeStatus
      && row.pledgeId == u.pledgeId
    decreases |users|
  {
    var init := users[..|users| - 1];
    var last := users[|users| - 1];
    assert users == init + [last];
    if i < |users| - 1 {
      assert !PatreonIdsRepeat(init) by {
        forall a, b | 0 <= a < b < |init|
          ensures init[a].patreonId != init[b].patreonId
        {
          assert init[a] == users[a] && init[b] == users[b];
        }
      }
      UpdateEachWritesEach(table, init, i);
      assert users[i].patreonId != last.patreonId;
    }
  }
}

=== FILE: ranking.dfy ===
/** `ORDER BY <key> [DESC] LIMIT k` over an in-memory table: the first `k` rows of
    the table sorted by a string key. Rows with equal keys may come out in any
    order, as in SQL, so the model fixes one (selection order). */
module Ranking {
  import opened Text

  /** `x` may be listed before `y` in the requested direction. */
  predicate NotAfter(x: string, y: string, descending: bool)
  {
    if descending then LessEq(y, x) else LessEq(x, y)
  }

  lemma NotAfterTotal(x: string, y: string, descending: bool)
    ensures NotAfter(x, y, descending) || NotAfter(y, x, descending)
  {
    LessEqTotal(x, y);
  }

  lemma NotAfterTransitive(x: string, y: string, z: string, descending: bool)
    ensures NotAfter(x, y, descending) && NotAfter(y, z, descending) ==> NotAfter(x, z, descending)
  {
    LessEqTransitive(x, y, z);
    LessEqTransitive(z, y, x);
  }

  /** Every pair of rows is in the requested order. */
  predicate Sorted<T>(rows: seq<T>, key: T -> string, descending: bool)
  {
    forall i, j :: 0 <= i < j < |rows| ==> NotAfter(key(rows[i]), key(rows[j]), descending)
  }

  /** Position of a row that may be listed before every other row. */
  function ExtremeIndex<T>(rows: seq<T>, key: T -> string, descending: bool): (m: nat)
    requires |rows| > 0
    ensures m < |rows|
    ensures forall j :: 0 <= j < |rows| ==> NotAfter(key(rows[m]), key(rows[j]), descending)
  {
    if |rows| == 1 then
      LessIrreflexive(key(rows[0]));
      0
    else
      var m := ExtremeIndex(rows[1..], key, descending) + 1;
      assert forall j :: 1 <= j < |rows| ==> NotAfter(key(rows[m]), key(rows[j]), descending) by {
        forall j | 1 <= j < |rows|
          ensures NotAfter(key(rows[m]), key(rows[j]), descending)
        {
          assert rows[1..][j - 1] == rows[j];
        }
      }
      LessIrreflexive(key(rows[0]));
      if NotAfter(key(rows[m]), key(rows[0]), descending) then m
      else
        NotAfterTotal(key(rows[m]), key(rows[0]), descending);
        assert forall j :: 0 <= j < |rows| ==> NotAfter(key(rows[0]), key(rows[j]), descending) by {
          forall j | 0 <= j < |rows|
            ensures NotAfter(key(rows[0]), key(rows[j]), descending)
          {
            NotAfterTransitive(key(rows[0]), key(rows[m]), key(rows[j]), descending);
          }
        }
        0
  }

  /** The table without the row at position `m`. */
  function Without<T>(rows: seq<T>, m: nat): (r: seq<T>)
    requires m < |rows|
    ensures |r| == |rows| - 1
    ensures multiset(r) + multiset{rows[m]} == multiset(rows)
  {
    assert rows == rows[..m] + [rows[m]] + rows[m + 1..];
    rows[..m] + rows[m + 1..]
  }

  /** `ORDER BY key [DESC] LIMIT k`: as many rows as the limit allows, drawn from
      the table, in order, and no row left out comes before a row kept. */
  function TopK<T>(rows: seq<T>, key: T -> string, k: nat, descending: bool): (r: seq<T>)
    ensures |r| == if k < |rows| then k else |rows|
    ensures multiset(r) <= multiset(rows)
    ensures Sorted(r, key, descending)
    ensures forall x, y :: x in multiset(rows) - multiset(r) && y in r ==> NotAfter(key(y), key(x), descending)
    decreases k
  {
    if k == 0 || |rows| == 0 then []
    else
      var m := ExtremeIndex(rows, key, descending);
      var rest := Without(rows, m);
      var tail := TopK(rest, key, k - 1, descending);
      TopKStep(rows, key, k, descending, m, rest, tail);
      [rows[m]] + tail
  }

  /** The inductive step of `TopK`: putting the extreme row in front of the top
      `k - 1` of the remaining rows gives the top `k`. */
  lemma TopKStep<T>(rows: seq<T>, key: T -> string, k: nat, descending: bool, m: nat, rest: seq<T>, tail: seq<T>)
    requires 0 < k && m < |rows|
    requires forall j :: 0 <= j < |rows| ==> NotAfter(key(rows[m]), key(rows[j]), descending)
    requires |rest| == |rows| - 1 && multiset(rest) + multiset{rows[m]} == multiset(rows)
    requires |tail| == if k - 1 < |rest| then k - 1 else |rest|
    requires multiset(tail) <= multiset(rest)
    requires Sorted(tail, key, descending)
    requires forall x, y :: x in multiset(rest) - multiset(tail) && y in tail ==> NotAfter(key(y), key(x), descending)
    ensures multiset([rows[m]] + tail) <= multiset(rows)
    ensures Sorted([rows[m]] + tail, key, descending)
    ensures forall x, y :: x in multiset(rows) - multiset([rows[m]] + tail) && y in [rows[m]] + tail ==> NotAfter(key(y), key(x), descending)
  {
    var r := [rows[m]] + tail;
    assert multiset(r) == multiset(tail) + multiset{rows[m]};
    assert multiset(rows) - multiset(r) == multiset(rest) - multiset(tail);
    forall y | y in tail
      ensures NotAfter(key(rows[m]), key(y), descending)
    {
      assert y in multiset(tail);
      assert y in multiset(rest);
      assert y in multiset(rows);
      var p :| 0 <= p < |rows| && rows[p] == y;
    }
    ConsSorted(rows[m], tail, key, descending);
    forall x | x in multiset(rows)
      ensures NotAfter(key(rows[m]), key(x), descending)
    {
      assert x in rows;
      var j :| 0 <= j < |rows| && rows[j] == x;
    }
  }

  /** A row that may come before every row of a sorted list may head it. */
  lemma ConsSorted<T>(h: T, tail: seq<T>, key: T -> string, descending: bool)
    requires Sorted(tail, key, descending)
    requires forall y :: y in tail ==> NotAfter(key(h), key(y), descending)
    ensures Sorted([h] + tail, key, descending)
  {
    var r := [h] + tail;
    forall i, j | 0 <= i < j < |r|
      ensures NotAfter(key(r[i]), key(r[j]), descending)
    {
      assert r[j] == tail[j - 1];
      if i > 0 {
        assert r[i] == tail[i - 1];
      }
    }
  }

  /** Python's `list.reverse()`. */
  function Reverse<T>(s: seq<T>): (r: seq<T>)
    ensures |r| == |s|
    ensures forall i :: 0 <= i < |s| ==> r[i] == s[|s| - 1 - i]
  {
    if |s| == 0 then [] else Reverse(s[1..]) + [s[0]]
  }

  /** Reversing keeps the rows and turns a descending list into an ascending one. */
  lemma ReverseFlipsOrder<T>(s: seq<T>, key: T -> string)
    ensures multiset(Reverse(s)) == multiset(s)
    ensures Sorted(s, key, true) ==> Sorted(Reverse(s), key, false)
  {
    if |s| > 0 {
      ReverseFlipsOrder(s[1..], key);
      assert s == [s[0]] + s[1..];
    }
  }
}

=== FILE: resolver.dfy ===
/** Name resolution (`_case_insensitive_get_emote` in `sql_helper/mixins/emojis.py`):
    pick one emote for a typed name within a scope, preferring an exact-case usable
    match, then a same-image copy of the exact match, then a usable case-insensitive
    match, then a same-image copy of the case-insensitive match. */
module Resolver {
  import opened Common
  import opened Text
  import opened Emotes

  /** The cascade the resolver implements, stated directly on the table: each step
      is the first row meeting one WHERE clause, with no shortcuts. */
  function Cascade(store: Store, ctx: Ctx, name: string): Option<SqlEmoji>
  {
    var exact := Select(store, Exact(ctx, name));
    if exact.Some? && exact.value.usable then exact
    else if exact.Some? && EmoteLike(store, exact.value, true).Some? then EmoteLike(store, exact.value, true)
    else
      var usableFolded := Select(store, FoldedUsable(ctx, name));
      if usableFolded.Some? then usableFolded
      else match Select(store, Folded(ctx, name))
        case None => None
        case Some(folded) => EmoteLike(store, folded, true)
  }

  /** `_case_insensitive_get_emote` as written. The first lookup is case-insensitive;
      its row doubles as the exact match when its name already equals the request,
      and as the usable case-insensitive match when it is usable. */
  function Resolve(store: Store, ctx: Ctx, name: string): (r: Lookup)
    ensures r.found == Cascade(store, ctx, name)
    // nothing matches case-insensitively: nothing, after one query, no fallback (and only then)
    ensures (forall j :: 0 <= j < |store| ==> !Matches(Folded(ctx, name), store[j])) <==> r == Lookup(None, 1)
    ensures 1 <= r.queries <= 5
  {
    var ci := Select(store, Folded(ctx, name));
    if ci.None? then Lookup(None, 1)
    else
      var usableCi := if ci.value.usable then ci else None;
      var exactQueries := if ci.value.name == name then 0 else 1;
      var cs := if ci.value.name == name then ci else Select(store, Exact(ctx, name));
      ShortcutIsExactLookup(store, ctx, name);
      UsableShortcutIsUsableLookup(store, ctx, name);
      if cs.Some? && cs.value.usable then Lookup(cs, 1 + exactQueries)
      else
        var likeQueries := if cs.Some? then 1 else 0;
        var copy := if cs.Some? then EmoteLike(store, cs.value, true) else None;
        if copy.Some? then Lookup(copy, 1 + exactQueries + likeQueries)
        else if usableCi.Some? then Lookup(usableCi, 1 + exactQueries + likeQueries)
        else
          var retry := Select(store, FoldedUsable(ctx, name));
          if retry.Some? then Lookup(retry, 2 + exactQueries + likeQueries)
          else Lookup(EmoteLike(store, ci.value, true), 3 + exactQueries + likeQueries)
  }

  /** The resolver never answers with an unusable row, and always with a row of
      the table. */
  lemma ResolveFindsUsableRow(store: Store, ctx: Ctx, name: string)
    ensures UsableRowOf(store, Resolve(store, ctx, name).found)
  {
    var exact := Select(store, Exact(ctx, name));
    if exact.Some? && exact.value.usable {
      var i :| FirstAt(store, Exact(ctx, name), i) && exact.value == Read(store[i]);
    } else if exact.Some? && EmoteLike(store, exact.value, true).Some? {
    } else {
      var usableFolded := Select(store, FoldedUsable(ctx, name));
      if usableFolded.Some? {
        var i :| FirstAt(store, FoldedUsable(ctx, name), i) && usableFolded.value == Read(store[i]);
      }
    }
  }

  /** The first case-insensitive match, when usable and exactly named, is the
      answer after a single query. */
  lemma UsableExactFirstMatchTakesOneQuery(store: Store, ctx: Ctx, name: string, i: int)
    requires FirstAt(store, Folded(ctx, name), i) && store[i].usable && Trim(store[i].name) == name
    ensures Resolve(store, ctx, name) == Lookup(Some(Read(store[i])), 1)
  {
    var ci := Select(store, Folded(ctx, name));
    var k :| FirstAt(store, Folded(ctx, name), k) && ci.value == Read(store[k]);
    FirstAtUnique(store, Folded(ctx, name), i, k);
  }

  /** Every exact-name match is a case-insensitive match. */
  lemma ExactIsFolded(ctx: Ctx, name: string, row: EmoteRow)
    ensures Matches(Exact(ctx, name), row) ==> Matches(Folded(ctx, name), row)
    ensures Matches(ExactUsable(ctx, name), row) ==> Matches(FoldedUsable(ctx, name), row)
  {
  }

  /** When the first case-insensitive match already carries the requested name, it
      is also the first exact match, so skipping the second query loses nothing. */
  lemma ShortcutIsExactLookup(store: Store, ctx: Ctx, name: string)
    ensures var ci := Select(store, Folded(ctx, name));
      ci.Some? && ci.value.name == name ==> ci == Select(store, Exact(ctx, name))
  {
    var ci := Select(store, Folded(ctx, name));
    if ci.Some? && ci.value.name == name {
      var i :| FirstAt(store, Folded(ctx, name), i) && ci.value == Read(store[i]);
      assert FirstAt(store, Exact(ctx, name), i) by {
        forall j | 0 <= j < i
          ensures !Matches(Exact(ctx, name), store[j])
        {
          ExactIsFolded(ctx, name, store[j]);
        }
      }
      var e := Select(store, Exact(ctx, name));
      var k :| FirstAt(store, Exact(ctx, name), k) && e.value == Read(store[k]);
      FirstAtUnique(store, Exact(ctx, name), i, k);
    }
  }

  /** A usable first case-insensitive match is also the first usable one. */
  lemma UsableShortcutIsUsableLookup(store: Store, ctx: Ctx, name: string)
    ensures var ci := Select(store, Folded(ctx, name));
      ci.Some? && ci.value.usable ==> ci == Select(store, FoldedUsable(ctx, name))
  {
    var ci := Select(store, Folded(ctx, name));
    if ci.Some? && ci.value.usable {
      var i :| FirstAt(store, Folded(ctx, name), i) && ci.value == Read(store[i]);
      assert FirstAt(store, FoldedUsable(ctx, name), i);
      var u := Select(store, FoldedUsable(ctx, name));
      var k :| FirstAt(store, FoldedUsable(ctx, name), k) && u.value == Read(store[k]);
      FirstAtUnique(store, FoldedUsable(ctx, name), i, k);
    }
  }

  /** The cascade's first step: a usable first exact-name match is the answer. */
  lemma ExactUsableWins(store: Store, ctx: Ctx, name: string, i: int)
    requires FirstAt(store, Exact(ctx, name), i) && store[i].usable
    ensures Resolve(store, ctx, name).found == Some(Read(store[i]))
  {
    var e := Select(store, Exact(ctx, name));
    var k :| FirstAt(store, Exact(ctx, name), k) && e.value == Read(store[k]);
    FirstAtUnique(store, Exact(ctx, name), i, k);
  }

  /** If any usable case-insensitive match is in scope, something is returned. */
  lemma UsableFoldedMatchIsFound(store: Store, ctx: Ctx, name: string, j: int)
    requires 0 <= j < |store| && Matches(FoldedUsable(ctx, name), store[j])
    ensures Resolve(store, ctx, name).found.Some?
  {
    assert Select(store, FoldedUsable(ctx, name)).Some?;
  }

  /** When the first case-insensitive match is exactly named but unusable, the last
      fallback repeats the second query (the same-hash search on the same row): a
      resolution that gets as far as that fourth query finds nothing. */
  lemma RepeatedCopySearchFindsNothing(store: Store, ctx: Ctx, name: string, i: int)
    requires FirstAt(store, Folded(ctx, name), i) && !store[i].usable && Trim(store[i].name) == name
    requires Resolve(store, ctx, name).queries == 4
    ensures Resolve(store, ctx, name).found.None?
  {
    var ci := Select(store, Folded(ctx, name));
    var k :| FirstAt(store, Folded(ctx, name), k) && ci.value == Read(store[k]);
    FirstAtUnique(store, Folded(ctx, name), i, k);
  }

  // ---------------------------------------------------------------------------
  // The exact-name preference, as written and corrected

  /** As written, the exact-name lookup takes the first exact-name row whether or not
      it is usable. If that row is unusable, the resolver substitutes a same-image
      copy with another name even though a usable row with exactly the requested
      name sits further down the table. */
  lemma {:induction false} AsWrittenSkipsUsableExactMatch()
    ensures var store := [
        EmoteRow(1, Some("h1"), false, false, None, Some(7), "test", false, false, 0),
        EmoteRow(2, Some("h2"), true, false, None, Some(7), "test", false, false, 0),
        EmoteRow(3, Some("h1"), true, false, None, Some(8), "other", false, false, 0)];
      var ctx := Ctx(_ => true, s => s);
      && Matches(ExactUsable(ctx, "test"), store[1])
      && Resolve(store, ctx, "test") == Lookup(Some(Read(store[2])), 2)
      && Read(store[2]).name != "test"
  {
    var store := [
        EmoteRow(1, Some("h1"), false, false, None, Some(7), "test", false, false, 0),
        EmoteRow(2, Some("h2"), true, false, None, Some(7), "test", false, false, 0),
        EmoteRow(3, Some("h1"), true, false, None, Some(8), "other", false, false, 0)];
    var ctx := Ctx(_ => true, s => s);
    assert Trim("test") == "test" && Trim("other") == "other";
    assert FirstAt(store, Folded(ctx, "test"), 0);
    assert FirstAt(store, Like(Some("h1"), true), 2);
  }

  /** The resolver with the evident intent restored: when the first exact-name row
      is unusable, one more query looks for a usable exact-name row before the
      cascade goes on to substitute a copy. Everything else is the cascade as
      written. */
  function ResolveCorrected(store: Store, ctx: Ctx, name: string): (r: Lookup)
    ensures (forall j :: 0 <= j < |store| ==> !Matches(Folded(ctx, name), store[j])) <==> r == Lookup(None, 1)
    // a differently named answer only when no usable exact-name row is in scope ...
    ensures r.found.Some? && r.found.value.name != name ==>
      forall j :: 0 <= j < |store| ==> !Matches(ExactUsable(ctx, name), store[j])
    // ... and a usable exact-name row in scope always yields an exactly named answer
    ensures (exists j :: 0 <= j < |store| && Matches(ExactUsable(ctx, name), store[j])) ==>
      r.found.Some? && r.found.value.name == name
    ensures 1 <= r.queries <= 6
  {
    var ci := Select(store, Folded(ctx, name));
    var asWritten := Resolve(store, ctx, name);
    if ci.None? then asWritten
    else
      var exactQueries := if ci.value.name == name then 0 else 1;
      var cs := if ci.value.name == name then ci else Select(store, Exact(ctx, name));
      ShortcutIsExactLookup(store, ctx, name);
      CorrectedStepFacts(store, ctx, name);
      if cs.None? || cs.value.usable then asWritten
      else
        var exactUsable := Select(store, ExactUsable(ctx, name));
        if exactUsable.Some? then Lookup(exactUsable, 2 + exactQueries)
        else Lookup(asWritten.found, asWritten.queries + 1)
  }

  /** The corrected resolver, too, answers only with usable rows of the table. */
  lemma ResolveCorrectedFindsUsableRow(store: Store, ctx: Ctx, name: string)
    ensures UsableRowOf(store, ResolveCorrected(store, ctx, name).found)
  {
    ResolveFindsUsableRow(store, ctx, name);
    SelectedRow(store, ExactUsable(ctx, name));
  }

  /** `o` is absent, or a usable row of the table. */
  predicate UsableRowOf(store: Store, o: Option<SqlEmoji>)
  {
    o.Some? ==> o.value.usable && exists i :: 0 <= i < |store| && o.value == Read(store[i])
  }

  /** A selected row is a row of the table; a usable one is usable. */
  lemma SelectedRow(store: Store, q: Query)
    ensures var r := Select(store, q);
      r.Some? ==> exists i :: 0 <= i < |store| && r.value == Read(store[i])
    ensures var r := Select(store, q);
      r.Some? && (q.FoldedUsable? || q.ExactUsable? || r.value.usable) ==> UsableRowOf(store, r)
  {
  }

  /** The facts the corrected cascade's exact-name argument rests on: an exact
      lookup's row carries the requested name, and no exact-name row at all means no
      usable one. */
  lemma CorrectedStepFacts(store: Store, ctx: Ctx, name: string)
    ensures var e := Select(store, Exact(ctx, name)); e.Some? ==> e.value.name == name
    ensures var u := Select(store, ExactUsable(ctx, name)); u.Some? ==> u.value.name == name && u.value.usable
    ensures Select(store, Exact(ctx, name)).None? ==>
      forall j :: 0 <= j < |store| ==> !Matches(ExactUsable(ctx, name), store[j])
    ensures (exists j :: 0 <= j < |store| && Matches(ExactUsable(ctx, name), store[j])) ==>
      Select(store, ExactUsable(ctx, name)).Some?
  {
  }

  /** The correction changes nothing when the first exact-name row is usable or when
      there is no exact-name row at all. */
  lemma CorrectionAgreesWhenExactRowUsableOrMissing(store: Store, ctx: Ctx, name: string)
    requires var e := Select(store, Exact(ctx, name)); e.None? || e.value.usable
    ensures ResolveCorrected(store, ctx, name) == Resolve(store, ctx, name)
  {
    ShortcutIsExactLookup(store, ctx, name);
  }

  /** On the table that defeats the code as written, the corrected resolver returns
      the usable exact-name row. */
  lemma CorrectedFindsUsableExactMatch()
    ensures var store := [
        EmoteRow(1, Some("h1"), false, false, None, Some(7), "test", false, false, 0),
        EmoteRow(2, Some("h2"), true, false, None, Some(7), "test", false, false, 0),
        EmoteRow(3, Some("h1"), true, false, None, Some(8), "other", false, false, 0)];
      ResolveCorrected(store, Ctx(_ => true, s => s), "test").found == Some(Read(store[1]))
  {
    var store := [
        EmoteRow(1, Some("h1"), false, false, None, Some(7), "test", false, false, 0),
        EmoteRow(2, Some("h2"), true, false, None, Some(7), "test", false, false, 0),
        EmoteRow(3, Some("h1"), true, false, None, Some(8), "other", false, false, 0)];
    var ctx := Ctx(_ => true, s => s);
    assert Trim("test") == "test" && Trim("other") == "other";
    assert FirstAt(store, Folded(ctx, "test"), 0);
    assert FirstAt(store, ExactUsable(ctx, "test"), 1);
  }

  // ---------------------------------------------------------------------------
  // Worked examples: the parametrised resolution table of the test suite, each on
  // a table consistent with the answers the test feeds in, folding by ASCII case.

  /** A row as the test fixture builds it: guild 123, no roles, not blocked. */
  function FixtureRow(id: int, name: string, usable: bool, hash: string): EmoteRow
  {
    EmoteRow(id, Some(hash), usable, false, Some("cde"), Some(123), name, false, false, 0)
  }

  const Everywhere := Ctx(_ => true, AsciiLower)

  lemma FoldFacts()
    ensures AsciiLower("test") == "test" && AsciiLower("Test") == "test"
    ensures Trim("test") == "test" && Trim("Test") == "Test"
  {
    assert AsciiLower("Test") == "test";
  }

  /** Nothing matches: nothing, after one query. */
  lemma ExampleEmptyTable()
    ensures Resolve([], Everywhere, "test") == Lookup(None, 1)
  {
  }

  /** An exactly named usable row: it, after one query. */
  lemma ExampleExactFirst()
    ensures Resolve([FixtureRow(1, "test", true, "abc")], Everywhere, "test")
      == Lookup(Some(Read(FixtureRow(1, "test", true, "abc"))), 1)
  {
    FoldFacts();
    assert FirstAt([FixtureRow(1, "test", true, "abc")], Folded(Everywhere, "test"), 0);
  }

  /** A differently cased usable row ahead of an exactly named one: the exact one,
      after two queries. */
  lemma ExampleExactSecond()
    ensures var store := [FixtureRow(2, "Test", true, "abc"), FixtureRow(1, "test", true, "abc")];
      Resolve(store, Everywhere, "test") == Lookup(Some(Read(store[1])), 2)
  {
    var store := [FixtureRow(2, "Test", true, "abc"), FixtureRow(1, "test", true, "abc")];
    FoldFacts();
    assert FirstAt(store, Folded(Everywhere, "test"), 0);
    assert FirstAt(store, Exact(Everywhere, "test"), 1);
  }

  /** The exact row is unusable but a same-image copy exists: the copy, after three
      queries. */
  lemma ExampleExactCopy()
    ensures var store := [FixtureRow(2, "Test", true, "x"), FixtureRow(3, "test", false, "abc"), FixtureRow(1, "test", true, "abc")];
      Resolve(store, Everywhere, "test") == Lookup(Some(Read(store[2])), 3)
  {
    var store := [FixtureRow(2, "Test", true, "x"), FixtureRow(3, "test", false, "abc"), FixtureRow(1, "test", true, "abc")];
    FoldFacts();
    assert FirstAt(store, Folded(Everywhere, "test"), 0);
    assert FirstAt(store, Exact(Everywhere, "test"), 1);
    assert FirstAt(store, Like(Some("abc"), true), 2);
  }

  /** The exact row is unusable and has no copy: the usable differently cased row
      found first, after three queries. */
  lemma ExampleFoldedAfterFailedCopy()
    ensures var store := [FixtureRow(2, "Test", true, "x"), FixtureRow(3, "test", false, "abc")];
      Resolve(store, Everywhere, "test") == Lookup(Some(Read(store[0])), 3)
  {
    var store := [FixtureRow(2, "Test", true, "x"), FixtureRow(3, "test", false, "abc")];
    FoldFacts();
    assert FirstAt(store, Folded(Everywhere, "test"), 0);
    assert FirstAt(store, Exact(Everywhere, "test"), 1);
  }

  /** An unusable differently cased row ahead of a usable exact one: the exact one,
      after two queries. */
  lemma ExampleUnusableFoldedFirst()
    ensures var store := [FixtureRow(2, "Test", false, "abc"), FixtureRow(3, "test", true, "abc")];
      Resolve(store, Everywhere, "test") == Lookup(Some(Read(store[1])), 2)
  {
    var store := [FixtureRow(2, "Test", false, "abc"), FixtureRow(3, "test", true, "abc")];
    FoldFacts();
    assert FirstAt(store, Folded(Everywhere, "test"), 0);
    assert FirstAt(store, Exact(Everywhere, "test"), 1);
  }

  /** An unusable exact row with no copy, then a usable differently cased row: the
      latter, after three queries. */
  lemma ExampleFoldedRetry()
    ensures var store := [FixtureRow(2, "test", false, "abc"), FixtureRow(4, "Test", true, "y")];
      Resolve(store, Everywhere, "test") == Lookup(Some(Read(store[1])), 3)
  {
    var store := [FixtureRow(2, "test", false, "abc"), FixtureRow(4, "Test", true, "y")];
    FoldFacts();
    assert FirstAt(store, Folded(Everywhere, "test"), 0);
    assert FirstAt(store, FoldedUsable(Everywhere, "test"), 1);
  }
}

=== FILE: scores.dfy ===
/** The popularity counter of `sql_helper/mixins/emojis.py`: a per-emote signed byte
    that usage bumps with a probability halving every 32 points, that a daily decay
    lowers guild by guild, and that reads report shifted into 0..255. */
module Scores {
  import opened Common
  import opened Emotes

  /** Two to the power `n`. */
  function Pow2(n: nat): (r: nat)
    ensures r >= 1
  {
    if n == 0 then 1 else 2 * Pow2(n - 1)
  }

  /** A mathematical integer read back as a 32-bit two's-complement `int4`. */
  function ToInt32(x: int): (r: int)
    ensures -0x8000_0000 <= r < 0x8000_0000
    ensures (r - x) % 0x1_0000_0000 == 0
  {
    var m := x % 0x1_0000_0000;
    if m >= 0x8000_0000 then m - 0x1_0000_0000 else m
  }

  /** `int4` `x << n` as the server computes it: the shift count is taken modulo 32
      (so `-1` shifts by 31) and the product wraps to 32 bits. */
  function ShiftLeft32(x: int, n: int): int
  {
    ToInt32(x * Pow2(n % 32))
  }

  /** `(score::int) >> 5`, an arithmetic shift: division by 32 rounding down (Dafny's
      `/` by a positive divisor rounds down). Plus three. */
  function Bucket(s: SignedByte): (b: int)
    ensures -1 <= b <= 6
    ensures b == -1 <==> s <= -97
  {
    s / 32 + 3
  }

  /** `2 << bucket`, the range of the random draw for a row at score `s`. */
  function DrawRange(s: SignedByte): int
  {
    ShiftLeft32(2, Bucket(s))
  }

  /** The powers of two the draw range is built from. */
  lemma Pow2Values()
    ensures Pow2(0) == 1 && Pow2(1) == 2 && Pow2(2) == 4 && Pow2(3) == 8
    ensures Pow2(4) == 16 && Pow2(5) == 32 && Pow2(6) == 64 && Pow2(7) == 128
    ensures Pow2(31) == 0x8000_0000
  {
    assert Pow2(8) == 256;
    assert Pow2(16) == 0x1_0000;
    assert Pow2(24) == 0x100_0000;
  }

  /** `2 << b` for each bucket: bucket -1 shifts by 31 and wraps to 0. */
  lemma ShiftTwoByBucket(b: int)
    requires -1 <= b <= 6
    ensures ShiftLeft32(2, b) == if b == -1 then 0 else Pow2(b + 1)
  {
    Pow2Values();
    if b == -1 {
      assert ShiftLeft32(2, -1) == ToInt32(2 * 0x8000_0000);
    } else if b == 0 {
      assert ShiftLeft32(2, 0) == ToInt32(2 * 1);
    } else if b == 1 {
      assert ShiftLeft32(2, 1) == ToInt32(2 * 2);
    } else if b == 2 {
      assert ShiftLeft32(2, 2) == ToInt32(2 * 4);
    } else if b == 3 {
      assert ShiftLeft32(2, 3) == ToInt32(2 * 8);
    } else if b == 4 {
      assert ShiftLeft32(2, 4) == ToInt32(2 * 16);
    } else if b == 5 {
      assert ShiftLeft32(2, 5) == ToInt32(2 * 32);
    } else {
      assert ShiftLeft32(2, 6) == ToInt32(2 * 64);
    }
  }

  /** The draw range: 0 in bucket -1 (`2 << -1` wraps to 0), else `2^(bucket+1)`. */
  lemma DrawRangeValues(s: SignedByte)
    ensures s <= -97 ==> DrawRange(s) == 0
    ensures s > -97 ==> DrawRange(s) == Pow2(Bucket(s) + 1) && 2 <= DrawRange(s) <= 128
  {
    var b := Bucket(s);
    ShiftTwoByBucket(b);
    if b >= 0 {
      Pow2Monotone(1, b + 1);
      Pow2Monotone(b + 1, 7);
      Pow2Values();
    }
  }

  /** `trunc(random() * range)` can produce `d`: any value below a positive range,
      and only 0 when the range is 0. */
  predicate ValidDraw(d: nat, range: int)
  {
    if range <= 0 then d == 0 else d < range
  }

  /** The draw range never shrinks as the score grows. */
  lemma DrawRangeMonotone(s: SignedByte, t: SignedByte)
    requires s <= t
    ensures DrawRange(s) <= DrawRange(t)
  {
    DrawRangeValues(s);
    DrawRangeValues(t);
    if s > -97 {
      BucketMonotone(s, t);
      Pow2Monotone(Bucket(s) + 1, Bucket(t) + 1);
    }
  }

  lemma BucketMonotone(s: SignedByte, t: SignedByte)
    requires s <= t
    ensures Bucket(s) <= Bucket(t)
  {
    var qs, qt := s / 32, t / 32;
    assert s == 32 * qs + s % 32 && t == 32 * qt + t % 32;
  }

  lemma {:induction false} Pow2Monotone(m: nat, n: nat)
    requires m <= n
    ensures Pow2(m) <= Pow2(n)
    decreases n
  {
    if m < n {
      Pow2Monotone(m, n - 1);
    }
  }

  /** Each bucket above -1 halves the chance of an increment: 32 points up, the
      draw range doubles. */
  lemma DrawRangeDoublesPerBucket(s: SignedByte)
    requires -97 < s && s + 32 <= 127
    ensures DrawRange(s + 32) == 2 * DrawRange(s)
  {
    DrawRangeValues(s);
    DrawRangeValues(s + 32);
    assert Bucket(s + 32) == Bucket(s) + 1;
  }

  /** Bucket -1 is the certain increment the comment intends: the only draw its
      range can produce is 0. */
  lemma ColdestBucketAlwaysDraws0(s: SignedByte, d: nat)
    requires s <= -97 && ValidDraw(d, DrawRange(s))
    ensures d == 0
  {
    DrawRangeValues(s);
  }

  /** The batch names the row's (guild, emote) pair; a row without a guild never
      matches (`(NULL, id) in (...)` is not true). */
  predicate InBatch(row: EmoteRow, batch: seq<(int, int)>)
  {
    row.guildId.Some? && (row.guildId.value, row.emoteId) in batch
  }

  /** One row of `increment_guild_emote_score`, with `d` the row's random draw. */
  function BumpRow(row: EmoteRow, batch: seq<(int, int)>, d: nat): EmoteRow
  {
    if InBatch(row, batch) && d == 0 && row.score != 127 then row.(score := row.score + 1) else row
  }

  /** `increment_guild_emote_score`: `draws[i]` is the draw made for row `i`. */
  function Bump(store: Store, batch: seq<(int, int)>, draws: seq<nat>): (r: Store)
    requires |draws| == |store|
    ensures |r| == |store|
    // only the score changes ...
    ensures forall i :: 0 <= i < |r| ==> r[i] == store[i].(score := r[i].score)
    // ... by exactly one, and exactly on batch rows below the cap whose draw is 0
    ensures forall i :: 0 <= i < |r| ==> r[i].score == store[i].score || r[i].score == store[i].score + 1
    ensures forall i :: 0 <= i < |r| ==>
      (r[i].score != store[i].score <==> InBatch(store[i], batch) && store[i].score != 127 && draws[i] == 0)
  {
    if |store| == 0 then []
    else [BumpRow(store[0], batch, draws[0])] + Bump(store[1..], batch, draws[1..])
  }

  /** Only the set of pairs matters: repeating a pair in the batch bumps no more. */
  lemma {:induction false} BumpIgnoresDuplicates(store: Store, batch: seq<(int, int)>, other: seq<(int, int)>, draws: seq<nat>)
    requires |draws| == |store|
    requires forall p :: p in batch <==> p in other
    ensures Bump(store, batch, draws) == Bump(store, other, draws)
  {
    if |store| > 0 {
      BumpIgnoresDuplicates(store[1..], batch, other, draws[1..]);
    }
  }

  /** With valid draws, a batch row in bucket -1 is always bumped. */
  lemma ColdRowsAlwaysBumped(store: Store, batch: seq<(int, int)>, draws: seq<nat>, i: int)
    requires |draws| == |store| && 0 <= i < |store|
    requires ValidDraw(draws[i], DrawRange(store[i].score))
    requires InBatch(store[i], batch) && store[i].score <= -97
    ensures Bump(store, batch, draws)[i].score == store[i].score + 1
  {
    ColdestBucketAlwaysDraws0(store[i].score, draws[i]);
  }

  /** Guild `g` holds some row scoring above -28. */
  predicate HotGuild(store: Store, g: int)
  {
    exists j :: 0 <= j < |store| && store[j].guildId == Some(g) && store[j].score > -28
  }

  /** `select guild_id from emote_ids where score::int > -28 and guild_id is not null`. */
  function HotGuilds(store: Store): (hot: set<int>)
    ensures forall g :: g in hot <==> HotGuild(store, g)
  {
    set j | 0 <= j < |store| && store[j].guildId.Some? && store[j].score > -28 :: store[j].guildId.value
  }

  /** Decrement every row of the `hot` guilds that is not at the floor. */
  function DecayRows(rows: Store, hot: set<int>): (r: Store)
    ensures |r| == |rows|
    ensures forall i :: 0 <= i < |r| ==> r[i] == rows[i].(score := r[i].score)
    ensures forall i :: 0 <= i < |r| ==>
      r[i].score == if rows[i].guildId.Some? && rows[i].guildId.value in hot && rows[i].score != -128
                    then rows[i].score - 1 else rows[i].score
  {
    if |rows| == 0 then []
    else
      var row := rows[0];
      var head := if row.guildId.Some? && row.guildId.value in hot && row.score != -128
                  then row.(score := row.score - 1) else row;
      [head] + DecayRows(rows[1..], hot)
  }

  /** `decay_guild_emote_score`: every row of a guild that has some row above -28
      loses one point, floor rows (-128) excepted. Guild-level, not per row. */
  function Decay(store: Store): (r: Store)
    ensures |r| == |store|
    ensures forall i :: 0 <= i < |r| ==> r[i] == store[i].(score := r[i].score)
  {
    DecayRows(store, HotGuilds(store))
  }

  /** Which rows one decay tick lowers, and by how much. */
  lemma DecayEffect(store: Store)
    // orphans, rows of guilds with nothing above -28, and rows at the floor stay
    ensures forall i :: 0 <= i < |store| && store[i].guildId.None? ==> Decay(store)[i] == store[i]
    ensures forall i :: 0 <= i < |store| && store[i].guildId.Some? && !HotGuild(store, store[i].guildId.value) ==> Decay(store)[i] == store[i]
    ensures forall i :: 0 <= i < |store| && store[i].score == -128 ==> Decay(store)[i] == store[i]
    // every other row loses exactly one point
    ensures forall i :: (0 <= i < |store| && store[i].guildId.Some? && HotGuild(store, store[i].guildId.value) && store[i].score != -128
      ==> Decay(store)[i].score == store[i].score - 1)
  {
  }

  /** Unlike a per-row threshold, decay also lowers a row already at or below -28
      when another row of its guild is above it. */
  lemma ColdRowInHotGuildDecays()
    ensures var store := [
        EmoteRow(1, None, true, false, None, Some(5), "a", false, false, 0),
        EmoteRow(2, None, true, false, None, Some(5), "b", false, false, -50)];
      Decay(store)[1].score == -51
  {
    var store := [
        EmoteRow(1, None, true, false, None, Some(5), "a", false, false, 0),
        EmoteRow(2, None, true, false, None, Some(5), "b", false, false, -50)];
    DecayEffect(store);
    assert HotGuild(store, 5) by {
      assert store[0].guildId == Some(5) && store[0].score > -28;
    }
  }

  /** `n` scheduled decay ticks with no usage in between. */
  function DecayTimes(store: Store, n: nat): (r: Store)
    ensures |r| == |store|
    ensures forall i :: 0 <= i < |r| ==> r[i].guildId == store[i].guildId
  {
    if n == 0 then store else Decay(DecayTimes(store, n - 1))
  }

  /** Row `i` is the only row of its guild. */
  predicate Lone(store: Store, i: int)
  {
    0 <= i < |store| && store[i].guildId.Some?
    && forall j :: 0 <= j < |store| && j != i ==> store[j].guildId != store[i].guildId
  }

  /** One tick on a row alone in its guild: it loses a point exactly when it is
      above -28. */
  lemma DecayLoneRow(store: Store, i: int)
    requires Lone(store, i)
    ensures Decay(store)[i].score == if store[i].score > -28 then store[i].score - 1 else store[i].score
  {
    var g := store[i].guildId.value;
    DecayEffect(store);
    if store[i].score > -28 {
      assert HotGuild(store, g);
    } else {
      assert !HotGuild(store, g);
    }
  }

  /** Where a score above the threshold ends up after `n` ticks: one point lower
      per tick, stopping at -28; a score at or below -28 stays. */
  function Settled(s: int, n: nat): int
  {
    if s <= -28 then s else if s - n < -28 then -28 else s - n
  }

  /** A row alone in its guild sinks by one per tick until it reaches -28, then stays. */
  lemma {:induction false} LoneRowSettlesAtMinus28(store: Store, i: int, n: nat)
    requires Lone(store, i)
    ensures DecayTimes(store, n)[i].score == Settled(store[i].score, n)
  {
    if n > 0 {
      var m: nat := n - 1;
      var prev := DecayTimes(store, m)[i].score;
      LoneRowSettlesAtMinus28(store, i, m);
      OneMoreTick(store, i, n);
      SettleStep(store[i].score, m, prev);
    }
  }

  /** Decay moves no row to another guild, so a lone row stays lone. */
  lemma StaysLone(store: Store, i: int, n: nat)
    requires Lone(store, i)
    ensures Lone(DecayTimes(store, n), i)
  {
  }

  /** Tick `n` on a row alone in its guild. */
  lemma OneMoreTick(store: Store, i: int, n: nat)
    requires Lone(store, i) && n > 0
    ensures var prev := DecayTimes(store, n - 1)[i].score;
      DecayTimes(store, n)[i].score == if prev > -28 then prev - 1 else prev
  {
    StaysLone(store, i, n - 1);
    DecayLoneRow(DecayTimes(store, n - 1), i);
  }

  /** The arithmetic of one more tick: from the level after `m` ticks, one more
      tick reaches the level after `m + 1`. */
  lemma SettleStep(s: int, m: nat, prev: int)
    requires prev == Settled(s, m)
    ensures (if prev > -28 then prev - 1 else prev) == Settled(s, m + 1)
  {
  }

  /** `emote_score`: the first row's score plus 128, or 0 for an unknown id. */
  function EmoteScore(store: Store, emoteId: int): (r: int)
    ensures 0 <= r <= 255
    ensures (forall j :: 0 <= j < |store| ==> store[j].emoteId != emoteId) ==> r == 0
    ensures forall i :: FirstAt(store, ById(emoteId), i) ==> r == store[i].score + 128
  {
    match FirstIndex(store, ById(emoteId))
    case None => 0
    case Some(i) => store[i].score + 128
  }

  /** `guild_emote_scores`: each emote of the guild with its score plus 128. Rows are
      folded into the dictionary in table order; the query's `order by score desc`
      could only matter for a repeated id, which the primary key rules out. */
  function GuildEmoteScores(store: Store, guildId: int): (m: map<int, int>)
    ensures forall id :: id in m <==> exists j :: 0 <= j < |store| && store[j].guildId == Some(guildId) && store[j].emoteId == id
    ensures forall id :: id in m ==> 0 <= m[id] <= 255
    ensures forall id :: id in m ==>
      exists j :: 0 <= j < |store| && store[j].guildId == Some(guildId) && store[j].emoteId == id && m[id] == store[j].score + 128
    decreases |store|
  {
    if |store| == 0 then map[]
    else
      var last := store[|store| - 1];
      var earlier := GuildEmoteScores(store[..|store| - 1], guildId);
      assert forall j :: 0 <= j < |store| - 1 ==> store[..|store| - 1][j] == store[j];
      if last.guildId == Some(guildId) then earlier[last.emoteId := last.score + 128] else earlier
  }

  /** Under the primary key, the guild's dictionary and the single-emote read agree. */
  lemma GuildScoresAgreeWithEmoteScore(store: Store, guildId: int, i: int)
    requires UniqueIds(store) && 0 <= i < |store| && store[i].guildId == Some(guildId)
    ensures var m := GuildEmoteScores(store, guildId);
      store[i].emoteId in m && m[store[i].emoteId] == EmoteScore(store, store[i].emoteId)
  {
    var m := GuildEmoteScores(store, guildId);
    assert FirstAt(store, ById(store[i].emoteId), i);
  }
}

=== FILE: text.dfy ===
/** Strings as the database and Python see them: stripping the space padding of
    fixed-width name columns, and the code-point ("C" collation) order used by
    `order by "name"` and by `<`/`>` on names. */
module Text {

  /** Python `s.rstrip(" ")`: drop trailing spaces only. */
  function TrimEnd(s: string): string
  {
    if |s| > 0 && s[|s| - 1] == ' ' then TrimEnd(s[..|s| - 1]) else s
  }

  /** Drop leading spaces only. */
  function TrimStart(s: string): string
  {
    if |s| > 0 && s[0] == ' ' then TrimStart(s[1..]) else s
  }

  /** PostgreSQL `trim(s)`: drop leading and trailing spaces. */
  function Trim(s: string): string
  {
    TrimStart(TrimEnd(s))
  }

  /** What `rstrip(" ")` keeps: a prefix of the input, followed in the input by
      nothing but spaces, and not itself ending in a space. */
  lemma {:induction false} TrimEndKeepsPrefix(s: string)
    ensures |TrimEnd(s)| <= |s| && TrimEnd(s) == s[..|TrimEnd(s)|]
    ensures forall i :: |TrimEnd(s)| <= i < |s| ==> s[i] == ' '
    ensures |TrimEnd(s)| > 0 ==> TrimEnd(s)[|TrimEnd(s)| - 1] != ' '
    decreases |s|
  {
    if |s| > 0 && s[|s| - 1] == ' ' {
      TrimEndKeepsPrefix(s[..|s| - 1]);
    }
  }

  /** Stripping trailing spaces keeps every other character: the input is the
      result followed by nothing but spaces, and a second strip changes nothing. */
  lemma {:induction false} TrimEndSplits(s: string)
    ensures |TrimEnd(s)| <= |s|
    ensures s == TrimEnd(s) + s[|TrimEnd(s)|..]
    ensures forall c :: c in s[|TrimEnd(s)|..] ==> c == ' '
    ensures TrimEnd(TrimEnd(s)) == TrimEnd(s)
  {
    TrimEndKeepsPrefix(s);
    var r := TrimEnd(s);
    assert s == s[..|r|] + s[|r|..];
    forall c | c in s[|r|..]
      ensures c == ' '
    {
      var k :| 0 <= k < |s[|r|..]| && s[|r|..][k] == c;
      assert s[|r| + k] == c;
    }
  }

  /** Padding a name with spaces does not change what `rstrip` reads back. */
  lemma {:induction false} TrimEndIgnoresPadding(s: string, n: nat)
    ensures TrimEnd(s + seq(n, _ => ' ')) == TrimEnd(s)
    decreases n
  {
    if n > 0 {
      var padded := s + seq(n, _ => ' ');
      assert padded[..|padded| - 1] == s + seq(n - 1, _ => ' ');
      TrimEndIgnoresPadding(s, n - 1);
    } else {
      assert s + seq(n, _ => ' ') == s;
    }
  }

  /** Code-point lexicographic order on strings: `a < b` in the "C" collation. */
  predicate Less(a: string, b: string)
    decreases |a|
  {
    if |a| == 0 then |b| > 0
    else if |b| == 0 then false
    else if a[0] != b[0] then a[0] < b[0]
    else Less(a[1..], b[1..])
  }

  /** `a <= b` in the same order. */
  predicate LessEq(a: string, b: string)
  {
    !Less(b, a)
  }

  lemma {:induction false} LessIrreflexive(a: string)
    ensures !Less(a, a)
    decreases |a|
  {
    if |a| > 0 {
      LessIrreflexive(a[1..]);
    }
  }

  lemma {:induction false} LessAsymmetric(a: string, b: string)
    ensures Less(a, b) ==> !Less(b, a)
    decreases |a|
  {
    if |a| > 0 && |b| > 0 && a[0] == b[0] {
      LessAsymmetric(a[1..], b[1..]);
    }
  }

  lemma {:induction false} LessTransitive(a: string, b: string, c: string)
    ensures Less(a, b) && Less(b, c) ==> Less(a, c)
    decreases |a|
  {
    if |a| > 0 && |b| > 0 && |c| > 0 && a[0] == b[0] && b[0] == c[0] {
      LessTransitive(a[1..], b[1..], c[1..]);
    }
  }

  lemma {:induction false} LessTotal(a: string, b: string)
    ensures a == b || Less(a, b) || Less(b, a)
    decreases |a|
  {
    if |a| > 0 && |b| > 0 && a[0] == b[0] {
      LessTotal(a[1..], b[1..]);
      if a[1..] == b[1..] {
        assert a == [a[0]] + a[1..] && b == [b[0]] + b[1..];
      }
    }
  }

  /** `LessEq` is a total preorder (indeed a total order). */
  lemma LessEqTotal(a: string, b: string)
    ensures LessEq(a, b) || LessEq(b, a)
  {
    LessAsymmetric(a, b);
  }

  lemma LessEqTransitive(a: string, b: string, c: string)
    ensures LessEq(a, b) && LessEq(b, c) ==> LessEq(a, c)
  {
    if LessEq(a, b) && LessEq(b, c) && a != b && b != c {
      LessTotal(a, b);
      LessTotal(b, c);
      LessTransitive(a, b, c);
      LessAsymmetric(a, c);
    }
  }

  /** The empty string sits below every other string, so nothing is strictly below it. */
  lemma NothingBelowEmpty(a: string)
    ensures !Less(a, "")
  {
  }

  /** ASCII lower-casing: one concrete case fold, used for worked examples. */
  function AsciiLower(s: string): (r: string)
    ensures |r| == |s|
    ensures forall i :: 0 <= i < |r| ==> !('A' <= r[i] <= 'Z')
    ensures forall i :: 0 <= i < |s| && !('A' <= s[i] <= 'Z') ==> r[i] == s[i]
  {
    seq(|s|, i requires 0 <= i < |s| => if 'A' <= s[i] <= 'Z' then (s[i] - 'A' + 'a') as char else s[i])
  }

  /** Folding twice is folding once. */
  lemma AsciiLowerIdempotent(s: string)
    ensures AsciiLower(AsciiLower(s)) == AsciiLower(s)
  {
  }
}

=== FILE: webhook.dfy ===
/** `sql_helper/webhook.py`: a channel webhook, identified by its id alone. */
module Webhooks {
  import opened Common

  datatype Webhook = Webhook(webhookId: string, guildId: string, channelId: string, token: string, name: string)

  const UrlPrefix: string := "discord.com/api/webhooks/"

  /** `Webhook.url`. */
  function Url(w: Webhook): (url: string)
    ensures |url| == |UrlPrefix| + |w.webhookId| + 1 + |w.token|
    ensures url[..|UrlPrefix|] == UrlPrefix
  {
    UrlPrefix + w.webhookId + "/" + w.token
  }

  /** Position of the first `/` in `s`, or `|s|`. */
  function FirstSlash(s: string): (i: nat)
    ensures i <= |s|
    ensures forall j :: 0 <= j < i ==> s[j] != '/'
    ensures i < |s| ==> s[i] == '/'
  {
    if |s| == 0 || s[0] == '/' then 0 else 1 + FirstSlash(s[1..])
  }

  /** Reading a webhook URL back: the id runs to the first `/` after the prefix,
      the token is the rest. */
  function ParseUrl(url: string): (r: Option<(string, string)>)
    ensures r.Some? ==> '/' !in r.value.0 && url == UrlPrefix + r.value.0 + "/" + r.value.1
  {
    if |url| < |UrlPrefix| || url[..|UrlPrefix|] != UrlPrefix then None
    else
      var rest := url[|UrlPrefix|..];
      var i := FirstSlash(rest);
      if i == |rest| then None
      else
        assert rest == rest[..i] + "/" + rest[i + 1..];
        Some((rest[..i], rest[i + 1..]))
  }

  /** For an id without `/` (Discord ids are decimal numbers), the URL gives back
      the id and the token. */
  lemma {:induction false} UrlRoundTrip(w: Webhook)
    requires '/' !in w.webhookId
    ensures ParseUrl(Url(w)) == Some((w.webhookId, w.token))
  {
    var url := Url(w);
    var rest := url[|UrlPrefix|..];
    assert url == UrlPrefix + (w.webhookId + "/" + w.token);
    assert url[..|UrlPrefix|] == UrlPrefix;
    assert rest == w.webhookId + "/" + w.token;
    FirstSlashAfterId(w.webhookId, w.token);
    assert rest[..|w.webhookId|] == w.webhookId;
    assert rest[|w.webhookId| + 1..] == w.token;
  }

  lemma {:induction false} FirstSlashAfterId(id: string, token: string)
    requires '/' !in id
    ensures FirstSlash(id + "/" + token) == |id|
  {
    if |id| > 0 {
      assert (id + "/" + token)[1..] == id[1..] + "/" + token;
      FirstSlashAfterId(id[1..], token);
    }
  }

  /** The other operand of `__eq__`: any Python value. */
  datatype PyValue = WebhookValue(webhook: Webhook) | OtherValue

  /** `Webhook.__eq__`: never equal to a non-webhook; otherwise the ids decide. */
  predicate Eq(w: Webhook, other: PyValue)
  {
    other.WebhookValue? && w.webhookId == other.webhook.webhookId
  }

  /** `__eq__` is an equivalence on webhooks that ignores every field but the id. */
  lemma EqIsEquivalence(a: Webhook, b: Webhook, c: Webhook)
    ensures Eq(a, WebhookValue(a))
    ensures Eq(a, WebhookValue(b)) <==> Eq(b, WebhookValue(a))
    ensures Eq(a, WebhookValue(b)) && Eq(b, WebhookValue(c)) ==> Eq(a, WebhookValue(c))
    ensures Eq(a, WebhookValue(b)) <==> a.webhookId == b.webhookId
    ensures !Eq(a, OtherValue)
  {
  }

  predicate IsDigit(c: char)
  {
    '0' <= c <= '9'
  }

  function DigitValue(c: char): (d: nat)
    requires IsDigit(c)
    ensures d < 10
  {
    (c as int) - ('0' as int)
  }

  /** The number a run of decimal digits spells (leading zeros allowed). */
  function DigitsValue(s: string): (n: nat)
    requires AllDigits(s)
  {
    if |s| == 0 then 0 else DigitsValue(s[..|s| - 1]) * 10 + DigitValue(s[|s| - 1])
  }

  /** Python's `ValueError`. */
  datatype ValueError = InvalidLiteral

  /** `int(s)` on a string: an optional sign and at least one decimal digit. */
  function ParseInt(s: string): (r: Result<int, ValueError>)
    ensures r.Success? <==> AllDigits(Unsigned(s)) && |Unsigned(s)| > 0
  {
    var digits := Unsigned(s);
    if |digits| == 0 || !AllDigits(digits) then Failure(InvalidLiteral)
    else
      var magnitude: int := DigitsValue(digits);
      if |s| > 0 && s[0] == '-' then Success(-magnitude) else Success(magnitude)
  }

  predicate AllDigits(s: string)
  {
    forall i :: 0 <= i < |s| ==> IsDigit(s[i])
  }

  /** The string without a leading sign. */
  function Unsigned(s: string): string
  {
    if |s| > 0 && (s[0] == '-' || s[0] == '+') then s[1..] else s
  }

  /** `Webhook.__hash__`: `int(webhook_id)`, which raises for an id that is not a
      number. */
  function Hash(w: Webhook): (r: Result<int, ValueError>)
    ensures r.Success? ==> AllDigits(Unsigned(w.webhookId))
  {
    ParseInt(w.webhookId)
  }

  /** Equal webhooks hash alike, as Python requires of `__eq__` and `__hash__`. */
  lemma EqualWebhooksHashAlike(a: Webhook, b: Webhook)
    requires Eq(a, WebhookValue(b))
    ensures Hash(a) == Hash(b)
  {
  }

  /** The decimal spelling of a natural number. */
  function Decimal(n: nat): (s: string)
    ensures |s| > 0 && AllDigits(s)
  {
    var d := ['0', '1', '2', '3', '4', '5', '6', '7', '8', '9'][n % 10];
    if n < 10 then [d] else Decimal(n / 10) + [d]
  }

  /** Reading back the decimal spelling of a number gives the number. */
  lemma {:induction false} DecimalRoundTrip(n: nat)
    ensures DigitsValue(Decimal(n)) == n
  {
    var s := Decimal(n);
    if n >= 10 {
      DecimalRoundTrip(n / 10);
      assert s[..|s| - 1] == Decimal(n / 10);
    }
  }

  /** A webhook whose id is a decimal number hashes to that number. */
  lemma HashOfDecimalId(w: Webhook, n: nat)
    requires w.webhookId == Decimal(n)
    ensures Hash(w) == Success(n)
  {
    DecimalRoundTrip(n);
    var s := Decimal(n);
    assert s[0] != '-' && s[0] != '+' by {
      assert IsDigit(s[0]);
    }
  }
}
